=== FILE: README.md ===
# error-central: a verified model of its text logic

error-central watches what a terminal writes to stderr and reports the
errors it recognises. This project models the pure text logic of four of
its parts in Dafny and proves properties of that model:

- **ec-monitor's error classifier** (`ec-monitor/src/ec-monitor.ts`, and
  the older `ec-monitor/ec-monitor.ts`). Four detectors are tried in a
  fixed order on each blob: Python, Node, Bash, Git. A detector fires when
  its regular expression matches. It then builds an `IFoundError` whose
  title is the first or last line of the trimmed blob. `_handleBlob`
  numbers every blob that is longer or shorter than one character.
  - Each regular expression is a predicate on strings (module `Patterns`),
    and a one-pass scanner is proved to decide it.
  - The two copies of the monitor differ only in the Bash pattern.
    `^-?bash:` is the current copy and `^bash:` the older one; the
    `Version` parameter selects between them.
- **Shell-config editing** (`ec-monitor/src/installer.js`):
  - the shell-to-file and shell-to-line mappings;
  - the three-line block appended at install, appended only once when the script path reads as plain text (see Installer.LemmaInstallIdempotent under "## Left out");
  - the script the block sources is always `bash.sh`, whatever the shell, because `writeToShellConfig` never calls `scriptFromShell`; the model takes the script path as a parameter;
  - the line surgery of `removeLinesFromFilename`.

  The marker that removal looks for (`# tabtab source for …`) is not in
  the block that install writes. The model keeps this, and
  `Installer.LemmaRemoveKeepsInstall` proves that removal leaves an
  installed block in place.
- **The stdin filter** (`ec_main.py`, `ec_save.py`):
  - a poll/read/transform/write loop, driven by a sequence of events on a
    pipe;
  - `demo_process`;
  - the log-and-pass-through handler `save_stderr`.
- **VS Code extension bookkeeping** (`vscode-extension/src/extension.ts`):
  - diagnostics posted once per snapshot;
  - parsing `docker ps` output and deciding which containers to tail;
  - the Stack Overflow query string.

Modules: `Wrappers` (Option, Result), `Text` (JavaScript `trim`, `split`,
`join`, substring search, Python one-character `replace`), `Patterns`,
`Classifier`, `Monitor`, `Installer`, `EcMain`, `EcSave`, `Extension`.

Some facts about the two Python scripts:

- `demo_process` inserts `<< ` (marker, then a space) before each newline.
  `EcMain.LemmaDemoMarker` shows `e\n` becoming `X<< \n`.
- Applying `demo_process` a second time is not a no-op, because every
  newline gains another marker (`EcMain.LemmaDemoNotIdempotent`).
- `save_stderr` has no single-character skip: every chunk, whatever its
  length, goes to the log (`EcSave.LemmaSingleCharactersLogged`). The only
  one-character skip is in `_handleBlob`. The log file is `test.log`,
  relative to the working directory.
- Both scripts `print` a banner before the loop starts, and the loop
  writes with `os.write`, which bypasses the `print` buffer. On a terminal
  the banner comes first. On a pipe it stays buffered until the
  interpreter exits, so it comes after everything the loop wrote
  (`EcMain.Stdout`).
- `removeLinesFromFilename` splits on `\r?\n` and joins with `\n`, so a
  file with CRLF line endings is written back with LF endings
  (`Installer.LemmaSplitLinesJoin`).

## Model

| member | source | states |
|---|---|---|
| Text.Trim | ec-monitor/src/ec-monitor.ts:143-147 | `trim` leaves no JavaScript whitespace at either end; the result occurs in the input with only whitespace before and after it; a string without edge whitespace is unchanged |
| Text.LemmaSplitFirstPiece | ec-monitor/src/ec-monitor.ts:163 | `split(c)[0]` is the text before the first `c`, or the whole string when there is no `c` |
| Text.LemmaSplitLastPiece | ec-monitor/src/ec-monitor.ts:143-147 | `split(c).pop()` is the text after the last `c`, or the whole string when there is no `c` |
| Text.LemmaJoinSplit | vscode-extension/src/extension.ts:197 | `split(c).join(sep)` replaces every `c` by `sep` |
| Patterns.ScanLineStarts | ec-monitor/src/ec-monitor.ts:159-160 | decides `/^lit */m`: true exactly when `lit` starts the string or follows a line terminator |
| Patterns.ScanTail | ec-monitor/src/ec-monitor.ts:137-138 | decides the shared tail `.*\n[a-zA-Z0-9]*:.*` from a given index |
| Patterns.ScanNode | ec-monitor/src/ec-monitor.ts:137-138 | decides the Node pattern: `Thrown:`, then later a newline, alphanumerics and a colon; only the first `Thrown:` needs scanning |
| Patterns.ScanPython | ec-monitor/src/ec-monitor.ts:206-207 | decides the Python pattern: `File "`, quote-free text up to `",`, then the shared tail; only the first closed head needs scanning |
| Patterns.NextQuote | ec-monitor/src/ec-monitor.ts:206 | `[^"]*` ends at the first double quote from the index, or at the end |
| Classifier.FirstLine | ec-monitor/src/ec-monitor.ts:163 | `data.trim().split("\n")[0] \|\| ""` is the trimmed blob's text before its first newline |
| Classifier.LastLine | ec-monitor/src/ec-monitor.ts:143-147 | `data.trim().split("\n").pop() \|\| ""` is the trimmed blob's text after its last newline |
| Classifier.LemmaGreedyEnd | ec-monitor/src/ec-monitor.ts:218 | from a quote, `'.*'` ends at the last quote before the next line terminator, and no longer span from that quote exists |
| Classifier.StripQuoted | ec-monitor/src/ec-monitor.ts:218 | `title.replace(/'.*'/, "")` cuts out exactly the leftmost-longest quote span, and changes nothing when there is none |
| Classifier.LemmaStripQuotedSingleLine | ec-monitor/src/ec-monitor.ts:218 | on a title without line terminators the cut runs from the first single quote to the last |
| Classifier.LemmaStripQuotedFewQuotes | ec-monitor/src/ec-monitor.ts:218 | a title with fewer than two single quotes keeps its second query equal to the title |
| Classifier.FindPythonError | ec-monitor/src/ec-monitor.ts:205-227 | fires iff the Python pattern matches; raw text is the blob, language `python`, title the last trimmed line, queries the title and the title without its quote span |
| Classifier.FindNodeError | ec-monitor/src/ec-monitor.ts:136-156 | fires iff the Node pattern matches; raw text is the blob, language `node`, title the last trimmed line, queries just the title |
| Classifier.FindBashError | ec-monitor/src/ec-monitor.ts:190-203 | fires iff a line starts with `bash:` or `-bash:`; title is the first trimmed line and the queries are just the title; with Version Legacy (the older copy, `ec-monitor/ec-monitor.ts` lines 122-135) only `bash:` counts |
| Classifier.FindGitError | ec-monitor/src/ec-monitor.ts:158-171 | fires iff a line starts with `remote:`; title is the first trimmed line |
| Classifier.FindNpmError | ec-monitor/src/ec-monitor.ts:173-187 | fires iff a line starts with `npm ERR`; title is the first trimmed line |
| Classifier.FirstFound | ec-monitor/src/ec-monitor.ts:121-129 | the detector loop returns null iff every result is null, and otherwise the first non-null result |
| Classifier.ExtractError | ec-monitor/src/ec-monitor.ts:114-130 | Python wins when it matches, then Node, then Bash, then Git; null iff none of the four patterns matches; any result has the blob as raw text and one of the four languages; the older copy (`ec-monitor/ec-monitor.ts` lines 71-83) tries the same order with its own Bash pattern |
| Classifier.LemmaExtractErrorLoop | ec-monitor/src/ec-monitor.ts:115-129 | the result equals the first non-null result over the detector list in its order |
| Classifier.LemmaNeverNpm | ec-monitor/src/ec-monitor.ts:116-120 | no result has language `npm`, even for a blob that `findNpmError` accepts |
| Classifier.LemmaBashVersions | ec-monitor/ec-monitor.ts:123 | the current Bash detector fires iff the older one does or a line starts with `-bash:`; when the older one fires, both agree |
| Classifier.LemmaDashBashLine | ec-monitor/ec-monitor.ts:122-126 | a one-line message that starts with `-bash:` and has no `F` or `T` matches only the current Bash pattern: not the older one, and not Python, Node or Git |
| Classifier.LemmaLoginShellMessage | ec-monitor/ec-monitor.ts:122-126 | `-bash: foo: command not found` is an error for the current copy and none for the older one |
| Monitor.HandleBlob | ec-monitor/src/ec-monitor.ts:91-107 | a one-character blob changes nothing; any other blob moves the counter on by one whether or not an error is found; an error is stamped with the old counter, the file path and the date, and keeps the blob as raw text; the older copy (`ec-monitor/ec-monitor.ts` lines 35-46) numbers blobs the same way and sets no date |
| Monitor.LemmaHandleBlobError | ec-monitor/src/ec-monitor.ts:92-103 | an error is raised iff the blob is not one character long and `extractError` finds one; its language, title and queries are those found |
| Monitor.HandleAll | ec-monitor/src/ec-monitor.ts:91-107 | over a blob sequence the counter never goes back and moves at most one step per blob, and each blob raises at most one error |
| Monitor.LemmaHandleAllCounter | ec-monitor/src/ec-monitor.ts:92-96 | over any blob sequence the counter grows by the number of blobs not of length one, and no more errors are raised than that |
| Monitor.LemmaIdsStep | ec-monitor/src/ec-monitor.ts:95-102 | one more blob keeps the raised ids strictly increasing, each below the new counter |
| Monitor.LemmaHandleAll | ec-monitor/src/ec-monitor.ts:92-102 | over any blob sequence the raised ids strictly increase and lie between the first and the final counter |
| Monitor.LemmaSkipInvisible | ec-monitor/src/ec-monitor.ts:92 | inserting a one-character blob anywhere changes neither the counter nor the errors |
| Installer.ScriptFromShell | ec-monitor/src/installer.js:36-47 | `fish.sh` for fish, `zsh.sh` for zsh, `bash.sh` for every other shell; nothing in the installer calls it, since `writeToShellConfig` always sources `../src/scripts/bash.sh` (installer.js:185), so `install` sources `bash.sh` for fish and zsh too |
| Installer.LocationFromShell | ec-monitor/src/installer.js:57-62 | known shells get their expanded config file; an unknown shell gets the literal `~/.bashrc`; the result is always one of the shell config files of `isInShellConfig` (lines 92-100) |
| Installer.SourceLineForShell | ec-monitor/src/installer.js:73-84 | the fish, zsh or Bash source line, Bash for unknown shells; the script name occurs in it |
| Installer.Block | ec-monitor/src/installer.js:157-161 | the appended text starts and ends with a newline and mentions the script |
| Installer.LemmaBlockThreeLines | ec-monitor/src/installer.js:157-161 | the block holds four newlines, so it adds exactly three lines after the file's last line |
| Installer.CheckFilenameForLine | ec-monitor/src/installer.js:110-127 | a missing file reads as empty, any other read error gives `undefined`, otherwise the answer is whether the content mentions the line |
| Installer.WriteToShellConfig | ec-monitor/src/installer.js:180-202 | nothing is appended iff the file is known to mention the script; an unreadable file gets the block |
| Installer.Install | ec-monitor/src/installer.js:139-237 | an empty name fails first, then an empty location; a config that already mentions the script is left alone without touching the disk; otherwise the append rejects when `mkdirp` fails, then when the write stream fails, and succeeds exactly when both succeed; afterwards a readable config mentions the script |
| Installer.LemmaInstallIdempotent | ec-monitor/src/installer.js:189-201 | installing twice into a readable file leaves the same file as installing once, with `match` read as plain-text containment; the second install writes nothing, so it succeeds whatever the disk does |
| Installer.Marker | ec-monitor/src/installer.js:256-258 | shell configs use `# tabtab source for packages`, other files `# tabtab source for <name> package` |
| Installer.LemmaShellConfigMarker | ec-monitor/src/installer.js:92-100 | in the six paths `isInShellConfig` accepts, all packages share one marker; in any other file two packages get different markers |
| Installer.SplitLines | ec-monitor/src/installer.js:254 | `split(/\r?\n/)` gives one line more than there are newlines, and no line holds a newline |
| Installer.LemmaSplitLinesJoin | ec-monitor/src/installer.js:254 | for any text, joining the lines with newlines gives the text with every `\r\n` turned into `\n`; without carriage returns it gives the text back |
| Installer.LemmaBlank | ec-monitor/src/installer.js:266-277 | the first `map` only empties lines, and it empties every marker line |
| Installer.BlankLines | ec-monitor/src/installer.js:265-277 | the `lineIndex` loop blanks exactly each marker line and the two lines after it, and keeps every other line in place |
| Installer.Collapse | ec-monitor/src/installer.js:278-288 | the second `map` and the `filter` never add lines and keep the first line |
| Installer.LemmaCollapse | ec-monitor/src/installer.js:278-288 | the collapse leaves no two neighbouring empty lines and keeps the non-empty lines in order; it changes nothing iff there were no two neighbouring empty lines |
| Installer.LemmaCollapseSplit | ec-monitor/src/installer.js:278-288 | the collapse works stretch by stretch: lines up to a non-empty line collapse on their own, whatever follows |
| Installer.LemmaCollapseRun | ec-monitor/src/installer.js:278-288 | a run of one or more empty lines before a non-empty line, or at the end, becomes exactly one empty line (the last of the run is kept) |
| Installer.LemmaCollapseBetween | ec-monitor/src/installer.js:278-288 | between stretches bounded by non-empty lines, every run of k >= 1 empty lines becomes exactly one empty line |
| Installer.LemmaCollapseKeeps | ec-monitor/src/installer.js:279-288 | collapsing only drops lines, so a property of every line survives it |
| Installer.LemmaRewriteLines | ec-monitor/src/installer.js:266-288 | after blanking and collapsing, no two neighbouring lines are empty and no line holds the marker |
| Installer.Rewrite | ec-monitor/src/installer.js:266-290 | the joined and trimmed buffer has no whitespace at either end |
| Installer.RemoveLines | ec-monitor/src/installer.js:246-294 | a missing file is left alone, a read error rejects, a file without the marker is unchanged; otherwise a failing `writeFile` rejects, and a successful one leaves a file with no edge whitespace and no marker left |
| Installer.LemmaRewriteNoMarker | ec-monitor/src/installer.js:266-290 | the rewritten text does not contain a newline-free marker |
| Installer.LemmaRemoveKeepsInstall | ec-monitor/src/installer.js:256-263 | removal after a successful install leaves the installed block in place, because the block never holds the marker, so nothing is written back |
| EcMain.Step | ec_main.py:10-17 | one event never takes back output or chunks, reads at most one chunk, keeps a closed pipe closed, and exits only on a poll after close with nothing buffered |
| EcMain.Run | ec_main.py:10-17 | over any event sequence the output and the chunks only grow, by at most one chunk per event, and a closed pipe stays closed |
| EcMain.LemmaStep | ec_main.py:10-17 | one poll, arrival or close keeps the loop invariant: the chunks are the sent text in order, no chunk is empty or longer than 4096, and the output is the handler applied to the chunks in order |
| EcMain.LemmaRun | ec_main.py:10-17 | the invariant holds after any event sequence; the loop exits only after the writer closed and the pipe ran dry |
| EcMain.LemmaIdlePoll | ec_main.py:11-12 | a poll with nothing buffered and the writer still open reads and writes nothing |
| EcMain.LemmaDoneFrozen | ec_main.py:14-15 | after the first empty read, no later event reads, writes or changes anything |
| EcMain.LemmaExit | ec_main.py:11-17 | the first poll after close with an empty pipe exits, and the chunks read are everything sent |
| EcMain.Stdout | ec_main.py:27-29 | the process's stdout: the banner before the loop's output on a terminal, and on a pipe after it once the loop has exited |
| EcMain.DemoProcess | ec_main.py:20-24 | no `e` survives the two passes, and the output is never shorter than the input |
| EcMain.LemmaDemoCons | ec_main.py:22-23 | the two `replace` passes act character by character: `e` becomes `X`, a newline becomes `<< ` plus the newline, all else stays |
| EcMain.LemmaDemoAppend | ec_main.py:22-23 | `demo_process` distributes over concatenation, so chunk boundaries do not matter |
| EcMain.LemmaDemoOutput | ec_main.py:22-23 | the output has no `e`, is three characters longer per newline, and keeps the newline count |
| EcMain.LemmaDemoNotIdempotent | ec_main.py:23 | with a newline in the input, a second application changes the output |
| EcMain.LemmaDemoMarker | ec_main.py:22-23 | `e` and a newline become `X<< ` and a newline: the marker goes before the newline, with the space after it |
| EcMain.LemmaDemoApply | ec_main.py:16-17 | the outputs over a chunk sequence are `demo_process` of their concatenation |
| EcMain.LemmaDemoRun | ec_main.py:27-29 | the loop has written `demo_process` of what was read, and after the exit of everything sent; stdout is the banner and then that text on a terminal, and that text and then the banner on a pipe after the exit |
| EcSave.SaveStderr | ec_save.py:7-13 | the chunk is returned unchanged and the log is the old log followed by the chunk |
| EcSave.LemmaSaveApply | ec_save.py:7-13 | over a chunk sequence the log grows by their concatenation, which is also the output |
| EcSave.LemmaSaveRun | ec_save.py:15-17 | the loop has written what was read and the log grew by the same text; after the exit both are everything sent; stdout is the banner and then that text on a terminal, and that text and then the banner on a pipe after the exit |
| EcSave.LemmaSingleCharactersLogged | ec_save.py:7-13 | one-character chunks are logged too |
| Extension.SoQuery | vscode-extension/src/extension.ts:197 | the query is the title with every space replaced by ` OR ` |
| Extension.LemmaSoQueryLength | vscode-extension/src/extension.ts:292 | the query is three characters longer per space in the title |
| Extension.LemmaSoQueryOneWord | vscode-extension/src/extension.ts:292 | a title without spaces is its own query |
| Extension.HandleError | vscode-extension/src/extension.ts:188-198 | the error is posted as it is, with the title query |
| Extension.NatToDecimal | vscode-extension/src/extension.ts:260 | a non-negative integer prints as decimal digits without leading zeros that read back as the number |
| Extension.CodeText | vscode-extension/src/extension.ts:260 | a number code prints as its decimal digits, after a minus sign when negative, and the digits read back as the number |
| Extension.LemmaNumCodeText | vscode-extension/src/extension.ts:260 | two different number codes never print alike |
| Extension.LemmaIdCollision | vscode-extension/src/extension.ts:258-260 | the path-dash-code id is ambiguous: a code `b-c` in file `p` and a code `c` in file `p-b` get the same id |
| Extension.LemmaStrNumCodeCollision | vscode-extension/src/extension.ts:260 | the string code `"7"` and the number code `7` give the same id in the same file |
| Extension.ExportUri | vscode-extension/src/extension.ts:251-293 | the inner loop over one file's diagnostics adds exactly its Error ids and posts its Error diagnostics whose id the old snapshot lacks, in order |
| Extension.ExportDiagnostics | vscode-extension/src/extension.ts:247-296 | the new snapshot is the set of ids of the current Error diagnostics; the posts are the Error diagnostics whose id the old snapshot lacks, in order |
| Extension.LemmaErrorIds | vscode-extension/src/extension.ts:253-261 | an id is in the snapshot iff some Error diagnostic has it |
| Extension.LemmaReportedIff | vscode-extension/src/extension.ts:261-292 | every post comes from an Error diagnostic new to the old snapshot, and every such diagnostic is posted |
| Extension.LemmaNonErrorsIgnored | vscode-extension/src/extension.ts:253-256 | warnings, information and hints change neither the posts nor the snapshot |
| Extension.LemmaDuplicatesBothPosted | vscode-extension/src/extension.ts:260-265 | two Error diagnostics with the same new id in one pass are both posted |
| Extension.LemmaReappearing | vscode-extension/src/extension.ts:248-295 | a problem absent from the previous pass is posted again when it returns |
| Extension.LemmaRuns | vscode-extension/src/extension.ts:227 | the `[^\r\n]+` runs: none in empty output, a break-free non-empty line is one run, a CR or LF separates the runs before it from those after |
| Extension.NameField | vscode-extension/src/extension.ts:229 | the name is the text before the first comma |
| Extension.CreatedField | vscode-extension/src/extension.ts:229 | the creation time is absent iff the line has no comma, and otherwise is the text from the first comma up to the next comma or the end |
| Extension.CheckLines | vscode-extension/src/extension.ts:228-238 | over the lines in order at most one tail starts per line, always for a non-empty name that some line gives; a container no line names keeps its record |
| Extension.CheckLine | vscode-extension/src/extension.ts:230-238 | a tail starts iff the name is non-empty and its recorded time differs; the name is then recorded with the line's time; other names are untouched |
| Extension.CheckForDocker | vscode-extension/src/extension.ts:206-240 | a failed `docker ps` changes nothing, any other failure is rethrown, otherwise each output run is checked in order |
| Extension.LemmaNoCommaUnknown | vscode-extension/src/extension.ts:229-230 | a line without a comma for an unknown container starts nothing |
| Extension.LemmaCheckLinesRecords | vscode-extension/src/extension.ts:228-238 | after a pass over distinct names every named container is recorded with its line's time |
| Extension.LemmaSecondPassQuiet | vscode-extension/src/extension.ts:228-238 | a second poll with the same output and distinct names starts no tail |

## Left out

- Reading logs, tails, `readdir`, process liveness checks, pid files, `unlink`, `mkdirp`, write streams, and `docker`/`bash` execution: these are I/O. Each appears only as an input or output of a pure function. Whether `mkdirp`, the append stream and `writeFile` succeed is an input (Installer.Disk, and the `writeOk` flag of Installer.RemoveLines).
- Network calls (the cloud post of the older monitor, the Stack Overflow request, the webview messages): the model returns what would be sent.
- Timers (`setInterval` polling), `select` and `os.read` themselves: reads are a given event sequence.
- A pipe read is taken to return everything buffered, up to 4096 characters; a real read may return less.
- EcMain.LemmaDemoRun: `os.write` may write fewer bytes than asked and its result is ignored; the model takes every write as complete.
- EcSave.LemmaSaveRun: `open('test.log', 'a')` or `write` raising `OSError` ends the process with a traceback; the model's log append never fails. A short `os.write` is not modelled either.
- EcMain.Stdout: a process killed by a signal may lose the buffered banner; the model assumes a normal exit.
- UTF-8 decoding, and a 4096-byte read splitting a multi-byte character: one character stands for one byte.
- String lengths count Dafny characters rather than UTF-16 code units, so `data.length == 1` is modelled as one character.
- `untildify`, `path.join` and the system shell are parameters, not interpreted.
- `installer.js` `uninstall`: it deletes completion scripts and calls `removeLinesFromFilename` on files chosen by the file system. Only the line removal is modelled.
- `COMPLETION_DIR` and `TABTAB_SCRIPT_NAME` from `constants.js`: only `uninstall` and a commented-out line use them.
- `String.prototype.match` with a string argument compiles it as a regular expression; the model takes the string as plain text (Installer.Matches). The two readings differ in both directions. The `.` in the script path matches any character, so the source also accepts near-misses that the model rejects. A path holding `(x86)`, `+`, `[`, `$` or `^`, or a Windows path whose `\s` or `\b` reads as a class or an anchor, does not match its own text, and an unbalanced `(` or `[`, or `++`, makes `match` throw a `SyntaxError`. The marker has none of these unless the package name does.
- Installer.LemmaInstallIdempotent: holds under the plain-text reading of `match` only. For a script path that does not match itself as a regular expression, the source appends the block again on every install; for one that is not a valid regular expression, the source's install fails with a `SyntaxError`, which the model does not raise.
- Installer.Install: an unreadable config keeps its unknown content after the append, because what the write stream would do with it is not modelled. When the write stream fails part-way, the source rejects after part of the block may have reached the file; the model returns only the failure and says nothing about the file's content afterwards.
- Installer.RemoveLines: after a failing `writeFile` the file's content is not modelled; the model returns only the failure.
- Installer.LemmaRemoveKeepsInstall: assumes the script path has no `k` and the package name has no newline. The installed path `…/src/scripts/bash.sh` has no `k` unless its install directory does.
- Extension.CodeText: fractional number codes, and integers of 10^21 or more in magnitude, which JavaScript prints in exponent form (`1e+21`), are not modelled. `NumCode` takes any integer, including ones no JavaScript number holds; the model prints every one in decimal. Absent codes print as `undefined` and object codes as `[object Object]`.
- The tail command strings built for each container (`docker logs -f …`) are left out. The model records the started container names.
- The monitor's `errorFound` event and the older monitor's HTTP post: the model returns the stamped error instead.
- `ec_server.py`, `prompt.js`, `postinstall.ts`, the compiled `out/extension.js`, the webview script, `getNonce` and the HTML templating are not part of this model.

=== FILE: classifier.dfy ===
/** The error classifier of ec-monitor: four detectors, tried in a fixed
    order over one blob of terminal output, and the `IFoundError` record
    they produce. Both copies of the monitor are covered; they differ only
    in the Bash pattern, selected by `Version`. */
module Classifier {
  import opened Wrappers
  import opened Text
  import opened Patterns

  /** `IFoundError`. Optional fields are `Option`s; `date` is the clock
      reading taken when the blob was handled, as a number. */
  datatype FoundError = FoundError(
    sessionId: Option<string>,
    blobId: Option<nat>,
    date: Option<int>,
    language: Option<string>,
    rawText: string,
    title: string,
    googleQs: Option<seq<string>>)

  /** `Current` is ec-monitor/src/ec-monitor.ts, whose Bash pattern accepts
      an optional leading `-`; `Legacy` is ec-monitor/ec-monitor.ts. */
  datatype Version = Current | Legacy

  /** `data.trim().split("\n")[0] || ""`; the `|| ""` never changes the
      result, since split always yields at least one string. */
  function FirstLine(data: string): (t: string)
    ensures IsFirstPiece(t, Trim(data), '\n')
  {
    LemmaSplitFirstPiece(Trim(data), '\n');
    Split(Trim(data), '\n')[0]
  }

  /** `data.trim().split("\n").pop() || ""`. */
  function LastLine(data: string): (t: string)
    ensures IsLastPiece(t, Trim(data), '\n')
  {
    var lines := Split(Trim(data), '\n');
    LemmaSplitLastPiece(Trim(data), '\n');
    lines[|lines| - 1]
  }

  /** The record a detector returns: no session, blob id or date yet. */
  function Detected(language: string, data: string, title: string, queries: seq<string>): FoundError {
    FoundError(None, None, None, Some(language), data, title, Some(queries))
  }

  /** Facts every detector result shares: the whole blob is the raw text,
      the language is set, and nothing else is filled in yet. */
  predicate DetectedFrom(e: FoundError, language: string, data: string) {
    && e.language == Some(language)
    && e.rawText == data
    && e.sessionId.None? && e.blobId.None? && e.date.None?
  }

  // ---- `title.replace(/'.*'/, "")` ----

  /** Index of the first line terminator at or after `p`, or `|t|`. */
  function LineEnd(t: string, p: int): (e: int)
    requires 0 <= p <= |t|
    ensures p <= e <= |t|
    ensures e < |t| ==> IsLineTerminator(t[e])
    ensures forall m :: p <= m < e ==> !IsLineTerminator(t[m])
    decreases |t| - p
  {
    if p == |t| || IsLineTerminator(t[p]) then p else LineEnd(t, p + 1)
  }

  /** Last single quote in `t[lo..hi]`, or `lo - 1` when there is none. */
  function LastQuote(t: string, lo: int, hi: int): (k: int)
    requires 0 <= lo <= hi <= |t|
    ensures lo - 1 <= k < hi
    ensures k >= lo ==> t[k] == '\''
    ensures forall m :: lo <= m < hi && k < m ==> t[m] != '\''
    decreases hi - lo
  {
    if hi == lo then lo - 1
    else if t[hi - 1] == '\'' then hi - 1
    else LastQuote(t, lo, hi - 1)
  }

  /** Where `'.*'` tried at index `i` ends: `.*` runs to the end of the
      line and backs off to the last quote; `i` when the line has none. */
  function GreedyEnd(t: string, i: int): int
    requires 0 <= i < |t|
  {
    LastQuote(t, i + 1, LineEnd(t, i + 1))
  }

  /** The search of `replace` with a non-global regex: try start indices
      from `i` upward and cut out the first match. */
  function StripQuotedFrom(t: string, i: int): string
    requires 0 <= i <= |t|
    decreases |t| - i
  {
    if i == |t| then t
    else if t[i] == '\'' && GreedyEnd(t, i) > i then t[..i] + t[GreedyEnd(t, i) + 1..]
    else StripQuotedFrom(t, i + 1)
  }

  /** `title.replace(/'.*'/, "")`: removes exactly the leftmost-longest
      `'.*'` match, and changes nothing when there is no match. */
  function StripQuoted(t: string): (r: string)
    ensures forall i, k :: LeftmostLongest(t, i, k) ==> r == t[..i] + t[k + 1..]
    ensures NoQuoteSpan(t) ==> r == t
  {
    LemmaStripQuotedFrom(t, 0);
    StripQuotedFrom(t, 0)
  }

  /** A match of `'.*'` from index `i` to index `k`: quotes at both ends and
      no line terminator between them. */
  predicate QuoteSpan(t: string, i: int, k: int) {
    0 <= i < k < |t| && t[i] == '\'' && t[k] == '\'' && forall m :: i < m < k ==> !IsLineTerminator(t[m])
  }

  predicate NoQuoteSpan(t: string) {
    forall i, k :: 0 <= i < k < |t| ==> !QuoteSpan(t, i, k)
  }

  /** The match a regex search reports: the leftmost start, and for that
      start the longest span (`.*` is greedy). */
  predicate LeftmostLongest(t: string, i: int, k: int) {
    && QuoteSpan(t, i, k)
    && (forall i', k' :: 0 <= i' < i && i' < k' < |t| ==> !QuoteSpan(t, i', k'))
    && (forall k' :: k < k' < |t| ==> !QuoteSpan(t, i, k'))
  }

  /** `GreedyEnd` finds the longest span from a quote, or reports none. */
  lemma LemmaGreedyEnd(t: string, i: int)
    requires 0 <= i < |t| && t[i] == '\''
    ensures GreedyEnd(t, i) > i ==> QuoteSpan(t, i, GreedyEnd(t, i))
    ensures forall k' :: GreedyEnd(t, i) < k' < |t| ==> !QuoteSpan(t, i, k')
  {
  }

  lemma {:induction false} LemmaStripQuotedFrom(t: string, p: int)
    requires 0 <= p <= |t|
    requires forall i', k' :: 0 <= i' < p && i' < k' < |t| ==> !QuoteSpan(t, i', k')
    ensures forall i, k :: LeftmostLongest(t, i, k) ==> StripQuotedFrom(t, p) == t[..i] + t[k + 1..]
    ensures NoQuoteSpan(t) ==> StripQuotedFrom(t, p) == t
    decreases |t| - p
  {
    if p < |t| {
      if t[p] == '\'' {
        LemmaGreedyEnd(t, p);
      }
      if t[p] == '\'' && GreedyEnd(t, p) > p {
        var k := GreedyEnd(t, p);
        forall i, k2 | LeftmostLongest(t, i, k2)
          ensures i == p && k2 == k
        {
        }
      } else {
        LemmaStripQuotedFrom(t, p + 1);
      }
    }
  }

  /** On a title without line terminators, the span cut out runs from the
      first single quote to the last one. */
  lemma LemmaStripQuotedSingleLine(t: string, i: int, k: int)
    requires forall m :: 0 <= m < |t| ==> !IsLineTerminator(t[m])
    requires 0 <= i < k < |t| && t[i] == '\'' && t[k] == '\''
    requires forall m :: 0 <= m < i ==> t[m] != '\''
    requires forall m :: k < m < |t| ==> t[m] != '\''
    ensures StripQuoted(t) == t[..i] + t[k + 1..]
  {
    assert LeftmostLongest(t, i, k);
  }

  /** A title with fewer than two single quotes is left unchanged. */
  lemma LemmaStripQuotedFewQuotes(t: string)
    requires forall i, k :: 0 <= i < k < |t| && t[i] == '\'' ==> t[k] != '\''
    ensures StripQuoted(t) == t
  {
  }

  // ---- Detectors ----

  /** `findPythonError`: title is the last line; the second query drops
      what looks like a quoted variable. */
  function FindPythonError(data: string): (r: Option<FoundError>)
    ensures r.Some? <==> PythonPattern(data)
    ensures r.Some? ==> && DetectedFrom(r.value, "python", data)
                        && IsLastPiece(r.value.title, Trim(data), '\n')
                        && r.value.googleQs == Some([r.value.title, StripQuoted(r.value.title)])
  {
    if !PythonPattern(data) then None
    else
      var title := LastLine(data);
      Some(Detected("python", data, title, [title, StripQuoted(title)]))
  }

  /** `findNodeError`: title is the last line. */
  function FindNodeError(data: string): (r: Option<FoundError>)
    ensures r.Some? <==> NodePattern(data)
    ensures r.Some? ==> && DetectedFrom(r.value, "node", data)
                        && IsLastPiece(r.value.title, Trim(data), '\n')
                        && r.value.googleQs == Some([r.value.title])
  {
    if !NodePattern(data) then None
    else
      var title := LastLine(data);
      Some(Detected("node", data, title, [title]))
  }

  /** `findBashError`: title is the first line; only the current version
      accepts `-bash:` (a login shell's prefix). */
  function FindBashError(v: Version, data: string): (r: Option<FoundError>)
    ensures r.Some? <==> BashPattern(v == Current, data)
    ensures r.Some? ==> && DetectedFrom(r.value, "bash", data)
                        && IsFirstPiece(r.value.title, Trim(data), '\n')
                        && r.value.googleQs == Some([r.value.title])
  {
    if !BashPattern(v == Current, data) then None
    else
      var title := FirstLine(data);
      Some(Detected("bash", data, title, [title]))
  }

  /** `findGitError`: title is the first line. */
  function FindGitError(data: string): (r: Option<FoundError>)
    ensures r.Some? <==> GitPattern(data)
    ensures r.Some? ==> && DetectedFrom(r.value, "git", data)
                        && IsFirstPiece(r.value.title, Trim(data), '\n')
                        && r.value.googleQs == Some([r.value.title])
  {
    if !GitPattern(data) then None
    else
      var title := FirstLine(data);
      Some(Detected("git", data, title, [title]))
  }

  /** `findNpmError` (current version only; no caller uses it). */
  function FindNpmError(data: string): (r: Option<FoundError>)
    ensures r.Some? <==> NpmPattern(data)
    ensures r.Some? ==> && DetectedFrom(r.value, "npm", data)
                        && IsFirstPiece(r.value.title, Trim(data), '\n')
                        && r.value.googleQs == Some([r.value.title])
  {
    if !NpmPattern(data) then None
    else
      var title := FirstLine(data);
      Some(Detected("npm", data, title, [title]))
  }

  // ---- extractError ----

  /** The detector results in the order `extractError` tries them. */
  function DetectorResults(v: Version, data: string): seq<Option<FoundError>> {
    [FindPythonError(data), FindNodeError(data), FindBashError(v, data), FindGitError(data)]
  }

  /** The `for ... of` loop of `extractError`: the first non-null result. */
  function FirstFound(results: seq<Option<FoundError>>): (r: Option<FoundError>)
    ensures r.None? <==> forall i :: 0 <= i < |results| ==> results[i].None?
    ensures r.Some? ==> exists i :: 0 <= i < |results| && results[i] == r
                          && forall j :: 0 <= j < i ==> results[j].None?
  {
    if |results| == 0 then None
    else if results[0].Some? then results[0]
    else FirstFound(results[1..])
  }

  /** `extractError`: Python, then Node, then Bash, then Git; the first
      detector that fires wins, and null when none does. */
  function ExtractError(v: Version, data: string): (r: Option<FoundError>)
    ensures PythonPattern(data) ==> r == FindPythonError(data)
    ensures !PythonPattern(data) && NodePattern(data) ==> r == FindNodeError(data)
    ensures (!PythonPattern(data) && !NodePattern(data) && BashPattern(v == Current, data))
              ==> r == FindBashError(v, data)
    ensures (!PythonPattern(data) && !NodePattern(data) && !BashPattern(v == Current, data))
              ==> r == FindGitError(data)
    ensures r.None? <==> !PythonPattern(data) && !NodePattern(data)
                         && !BashPattern(v == Current, data) && !GitPattern(data)
    ensures r.Some? ==> r.value.rawText == data
    ensures r.Some? ==> r.value.language in {Some("python"), Some("node"), Some("bash"), Some("git")}
  {
    var python := FindPythonError(data);
    if python.Some? then python
    else
      var node := FindNodeError(data);
      if node.Some? then node
      else
        var bash := FindBashError(v, data);
        if bash.Some? then bash
        else FindGitError(data)
  }

  /** `extractError` is the loop over the detector list: the first
      non-null detector result in list order. */
  lemma LemmaExtractErrorLoop(v: Version, data: string)
    ensures ExtractError(v, data) == FirstFound(DetectorResults(v, data))
  {
    var rs := DetectorResults(v, data);
    assert |rs| == 4;
    assert rs[0] == FindPythonError(data) && rs[1] == FindNodeError(data);
    assert rs[2] == FindBashError(v, data) && rs[3] == FindGitError(data);
  }

  /** The npm detector is not in the list: no blob is ever classified npm,
      not even one that `findNpmError` accepts. */
  lemma LemmaNeverNpm(v: Version, data: string)
    ensures ExtractError(v, data).Some? ==> ExtractError(v, data).value.language != Some("npm")
    ensures (NpmPattern(data) && !PythonPattern(data) && !NodePattern(data)
              && !BashPattern(v == Current, data) && !GitPattern(data))
              ==> FindNpmError(data).Some? && ExtractError(v, data).None?
  {
  }

  /** The two versions differ only on the Bash detector: the current one
      fires exactly when the older one does or a line starts with `-bash:`. */
  lemma LemmaBashVersions(data: string)
    ensures FindBashError(Current, data).Some? <==>
              FindBashError(Legacy, data).Some? || AtSomeLineStart(data, "-bash:")
    ensures FindBashError(Legacy, data).Some? ==> FindBashError(Current, data) == FindBashError(Legacy, data)
  {
  }

  /** A string without line terminators begins a line only at index 0. */
  lemma LemmaSingleLineStart(s: string, lit: string)
    requires forall m :: 0 <= m < |s| ==> !IsLineTerminator(s[m])
    ensures AtSomeLineStart(s, lit) <==> LiteralAt(s, 0, lit)
  {
  }

  /** A one-line message that starts with `-bash:` and holds no `F` and no
      `T` matches only the Bash pattern that allows the leading dash, the
      way a login shell reports errors. */
  lemma LemmaDashBashLine(s: string)
    requires LiteralAt(s, 0, "-bash:")
    requires forall m :: 0 <= m < |s| ==> !IsLineTerminator(s[m]) && s[m] != 'F' && s[m] != 'T'
    ensures !PythonPattern(s) && !NodePattern(s) && !GitPattern(s)
    ensures BashPattern(true, s) && !BashPattern(false, s)
  {
    LemmaMissingCharNotContained(s, "File \"", 'F');
    LemmaMissingCharNotContained(s, "Thrown:", 'T');
    LemmaSingleLineStart(s, "bash:");
    LemmaSingleLineStart(s, "-bash:");
    LemmaSingleLineStart(s, "remote:");
    LemmaLiteralAtIndex(s, 0, "-bash:", 0);
    assert !LiteralAt(s, 0, "bash:") by { LemmaLiteralAtFirst(s, 0, "bash:"); }
    assert !LiteralAt(s, 0, "remote:") by { LemmaLiteralAtFirst(s, 0, "remote:"); }
  }

  /** `-bash: foo: command not found` is such a message. */
  lemma LemmaLoginShellPatterns()
    ensures var s := "-bash: foo: command not found";
            && !PythonPattern(s) && !NodePattern(s) && !GitPattern(s)
            && BashPattern(true, s) && !BashPattern(false, s)
  {
    var a, b := "-bash: foo:", " command not found";
    var s := a + b;
    assert s == "-bash: foo: command not found";
    forall m | 0 <= m < |a| ensures !IsLineTerminator(a[m]) && a[m] != 'F' && a[m] != 'T' {
    }
    forall m | 0 <= m < |b| ensures !IsLineTerminator(b[m]) && b[m] != 'F' && b[m] != 'T' {
    }
    assert forall m :: 0 <= m < |s| ==> s[m] == if m < |a| then a[m] else b[m - |a|];
    assert LiteralAt(s, 0, "-bash:") by {
      assert s[..6] == a[..6];
    }
    LemmaDashBashLine(s);
  }

  /** A login shell's message is an error for the current version only. */
  lemma LemmaLoginShellMessage()
    ensures ExtractError(Legacy, "-bash: foo: command not found").None?
    ensures ExtractError(Current, "-bash: foo: command not found").Some?
    ensures ExtractError(Current, "-bash: foo: command not found").value.language == Some("bash")
  {
    LemmaLoginShellPatterns();
  }
}

=== FILE: ec_main.dfy ===
/** The stdin filter of ec_main.py: poll stdin, read up to 4096 characters,
    stop at the first empty read, and write what the processing function
    makes of each chunk. `select`, `os.read` and `os.write` are modelled by
    a pipe buffer driven by a sequence of events; UTF-8 decoding is left
    out, so one character stands for one byte. */
module EcMain {
  import opened Text

  /** The byte count passed to `os.read`. */
  const MaxRead: nat := 4096

  /** What can happen between two polls: the writer sends text, the writer
      closes its end, or the loop runs one iteration. */
  datatype Event = Arrive(text: string) | Close | Poll

  /** The loop and its surroundings: unread text in the pipe, whether the
      writer has closed, whether the loop has exited, the processing
      function's own state (for example a log file), everything written
      to stdout, and the chunks read so far. */
  datatype Loop<P> = Loop(pipe: string, closed: bool, done: bool, plugin: P, out: string, chunks: seq<string>)

  function Start<P>(plugin: P): Loop<P> {
    Loop("", false, false, plugin, "", [])
  }

  function Min(a: int, b: int): int {
    if a <= b then a else b
  }

  /** One event. A poll where `select` reports stdin not ready (nothing
      buffered, writer still open) does nothing; otherwise it reads at most
      `MaxRead` characters, exits on an empty read, and else writes
      `f(chunk)`. After the exit nothing changes any more. */
  function Step<P>(f: (P, string) -> (P, string), s: Loop<P>, e: Event): (r: Loop<P>)
    ensures s.out <= r.out && s.chunks <= r.chunks && |r.chunks| <= |s.chunks| + 1
    ensures s.closed ==> r.closed
    ensures !s.done && e.Close? ==> r.closed
    ensures !s.done && r.done ==> e.Poll? && s.closed && s.pipe == ""
  {
    if s.done then s
    else
      match e
      case Arrive(text) => if s.closed then s else s.(pipe := s.pipe + text)
      case Close => s.(closed := true)
      case Poll =>
        if |s.pipe| == 0 && !s.closed then s
        else
          var n := Min(|s.pipe|, MaxRead);
          if n == 0 then s.(done := true)
          else
            var (plugin, written) := f(s.plugin, s.pipe[..n]);
            s.(pipe := s.pipe[n..], plugin := plugin, out := s.out + written, chunks := s.chunks + [s.pipe[..n]])
  }

  /** The events applied in order. */
  function Run<P>(f: (P, string) -> (P, string), s: Loop<P>, events: seq<Event>): (r: Loop<P>)
    ensures s.out <= r.out && s.chunks <= r.chunks && |r.chunks| <= |s.chunks| + |events|
    ensures s.closed ==> r.closed
    decreases |events|
  {
    if |events| == 0 then s
    else Step(f, Run(f, s, events[..|events| - 1]), events[|events| - 1])
  }

  /** The processing function applied to the chunks in order: its final
      state and the concatenation of its outputs. */
  function Apply<P>(f: (P, string) -> (P, string), plugin: P, chunks: seq<string>): (P, string)
    decreases |chunks|
  {
    if |chunks| == 0 then (plugin, "")
    else
      var (p, written) := Apply(f, plugin, chunks[..|chunks| - 1]);
      var (p2, more) := f(p, chunks[|chunks| - 1]);
      (p2, written + more)
  }

  predicate ClosedIn(events: seq<Event>) {
    exists i :: 0 <= i < |events| && events[i].Close?
  }

  /** Everything the writer sent before it closed its end. */
  function Arrived(events: seq<Event>): string
    decreases |events|
  {
    if |events| == 0 then ""
    else
      var init := events[..|events| - 1];
      var e := events[|events| - 1];
      Arrived(init) + (if e.Arrive? && !ClosedIn(init) then e.text else "")
  }

  /** The loop's invariant from a fresh start: the chunks followed by the
      pipe are exactly the text sent, each chunk is a non-empty read of at
      most `MaxRead` characters, stdout and the function's state are the
      function applied to the chunks in order, and the loop exits only
      after the writer closed and the pipe ran dry. */
  ghost predicate Invariant<P>(f: (P, string) -> (P, string), plugin: P, s: Loop<P>, events: seq<Event>) {
    && Flatten(s.chunks) + s.pipe == Arrived(events)
    && (forall i :: 0 <= i < |s.chunks| ==> 0 < |s.chunks[i]| <= MaxRead)
    && (s.plugin, s.out) == Apply(f, plugin, s.chunks)
    && (s.closed <==> ClosedIn(events))
    && (s.done ==> s.closed && s.pipe == "")
  }

  lemma LemmaClosedInSnoc(events: seq<Event>, e: Event)
    ensures ClosedIn(events + [e]) <==> ClosedIn(events) || e.Close?
  {
    var all := events + [e];
    if ClosedIn(events) {
      var i :| 0 <= i < |events| && events[i].Close?;
      assert all[i].Close?;
    }
    if e.Close? {
      assert all[|events|].Close?;
    }
    if ClosedIn(all) {
      var i :| 0 <= i < |all| && all[i].Close?;
      if i < |events| {
        assert events[i].Close?;
      }
    }
  }

  /** The event log after one more event: what was sent and whether the
      writer has closed. */
  lemma LemmaEventSnoc(events: seq<Event>, e: Event)
    ensures ClosedIn(events + [e]) <==> ClosedIn(events) || e.Close?
    ensures Arrived(events + [e]) == Arrived(events) + (if e.Arrive? && !ClosedIn(events) then e.text else "")
  {
    LemmaClosedInSnoc(events, e);
    assert (events + [e])[..|events|] == events;
  }

  /** A poll that reads a non-empty chunk keeps the invariant. */
  lemma LemmaStepRead<P>(f: (P, string) -> (P, string), plugin: P, s: Loop<P>, events: seq<Event>)
    requires Invariant(f, plugin, s, events)
    requires !s.done && |s.pipe| > 0
    ensures Invariant(f, plugin, Step(f, s, Poll), events + [Poll])
  {
    LemmaEventSnoc(events, Poll);
    var t := Step(f, s, Poll);
    var n := Min(|s.pipe|, MaxRead);
    var chunk := s.pipe[..n];
    assert t.chunks == s.chunks + [chunk];
    LemmaFlattenAppend(s.chunks, [chunk]);
    assert Flatten([chunk]) == chunk;
    assert chunk + s.pipe[n..] == s.pipe;
    assert Flatten(t.chunks) + t.pipe == Flatten(s.chunks) + s.pipe;
    assert t.chunks[..|t.chunks| - 1] == s.chunks;
  }

  /** One step keeps the invariant. */
  lemma LemmaStep<P>(f: (P, string) -> (P, string), plugin: P, s: Loop<P>, events: seq<Event>, e: Event)
    requires Invariant(f, plugin, s, events)
    ensures Invariant(f, plugin, Step(f, s, e), events + [e])
  {
    LemmaEventSnoc(events, e);
    if !s.done && e.Poll? && |s.pipe| > 0 {
      LemmaStepRead(f, plugin, s, events);
    } else if !s.done && e.Arrive? && !s.closed {
      assert Flatten(s.chunks) + (s.pipe + e.text) == (Flatten(s.chunks) + s.pipe) + e.text;
    }
  }

  /** A poll while nothing is buffered and the writer is still open reads
      and writes nothing, whatever came before. */
  lemma LemmaIdlePoll<P>(f: (P, string) -> (P, string), s: Loop<P>)
    requires s.pipe == "" && !s.closed
    ensures Step(f, s, Poll) == s
  {
  }

  /** The invariant holds after any sequence of events. */
  lemma {:induction false} LemmaRun<P>(f: (P, string) -> (P, string), plugin: P, events: seq<Event>)
    ensures Invariant(f, plugin, Run(f, Start(plugin), events), events)
    decreases |events|
  {
    if |events| == 0 {
      assert Flatten([]) == "";
    } else {
      var init := events[..|events| - 1];
      var e := events[|events| - 1];
      LemmaRun(f, plugin, init);
      LemmaStep(f, plugin, Run(f, Start(plugin), init), init, e);
      assert init + [e] == events;
    }
  }

  /** Once the loop has exited, no later event reads, writes or changes
      anything. */
  lemma {:induction false} LemmaDoneFrozen<P>(f: (P, string) -> (P, string), s: Loop<P>, events: seq<Event>)
    requires s.done
    ensures Run(f, s, events) == s
    decreases |events|
  {
    if |events| > 0 {
      LemmaDoneFrozen(f, s, events[..|events| - 1]);
    }
  }

  /** The loop exits on the first poll after the writer closed and the
      pipe ran dry, and then stdout holds the function's output on all of
      the text sent. */
  lemma LemmaExit<P>(f: (P, string) -> (P, string), plugin: P, events: seq<Event>)
    requires var s := Run(f, Start(plugin), events); s.closed && s.pipe == ""
    ensures var s := Run(f, Start(plugin), events + [Poll]);
            && s.done
            && Flatten(s.chunks) == Arrived(events)
            && (s.plugin, s.out) == Apply(f, plugin, s.chunks)
  {
    LemmaRun(f, plugin, events);
    assert (events + [Poll])[..|events + [Poll]| - 1] == events;
  }

  // ---- the process's stdout ----

  /** How Python buffers `print` on stdout: line by line on a terminal,
      and in a block that is flushed only when the interpreter exits on a
      pipe or a file. */
  datatype StdoutKind = Terminal | Piped

  /** Everything on the process's stdout: the banner that the `__main__`
      block prints before the loop starts, and the text the loop writes
      with `os.write`, which bypasses the `print` buffer. On a terminal the
      banner comes first. On a pipe it waits in the buffer and comes last,
      once the loop has exited. */
  function Stdout<P>(banner: string, kind: StdoutKind, s: Loop<P>): (r: string)
    ensures kind == Terminal ==> |r| == |banner| + |s.out| && r[..|banner|] == banner && r[|banner|..] == s.out
    ensures kind == Piped ==> |r| >= |s.out| && r[..|s.out|] == s.out && r[|s.out|..] == (if s.done then banner else "")
  {
    match kind
    case Terminal => banner + s.out
    case Piped => s.out + (if s.done then banner else "")
  }

  // ---- demo_process ----

  /** What `demo_process` makes of one character. */
  function DemoChar(c: char): string {
    if c == 'e' then "X" else if c == '\n' then "<< \n" else [c]
  }

  /** `demo_process`: replace every `e` by `X`, then every newline by
      `<< ` followed by the newline. */
  function DemoProcess(data: string): (r: string)
    ensures 'e' !in r
    ensures |r| >= |data|
  {
    var noE := ReplaceChar(data, 'e', "X");
    assert 'e' !in noE by {
      if 'e' in noE {
        LemmaReplaceCharChars(data, 'e', "X", 'e');
      }
    }
    LemmaReplaceCharLength(data, 'e', "X");
    LemmaReplaceCharLength(noE, '\n', "<< \n");
    var r := ReplaceChar(noE, '\n', "<< \n");
    assert 'e' !in r by {
      if 'e' in r {
        LemmaReplaceCharChars(noE, '\n', "<< \n", 'e');
      }
    }
    r
  }

  /** The two passes amount to one pass over the characters. */
  lemma LemmaDemoCons(c: char, s: string)
    ensures DemoProcess([c] + s) == DemoChar(c) + DemoProcess(s)
  {
    assert ([c] + s)[1..] == s;
    var first := if c == 'e' then "X" else [c];
    assert ReplaceChar([c] + s, 'e', "X") == first + ReplaceChar(s, 'e', "X");
    LemmaReplaceCharAppend(first, ReplaceChar(s, 'e', "X"), '\n', "<< \n");
    assert ReplaceChar(first, '\n', "<< \n") == DemoChar(c) by {
      assert first[1..] == "";
    }
  }

  lemma {:induction false} LemmaDemoAppend(a: string, b: string)
    ensures DemoProcess(a + b) == DemoProcess(a) + DemoProcess(b)
  {
    LemmaReplaceCharAppend(a, b, 'e', "X");
    LemmaReplaceCharAppend(ReplaceChar(a, 'e', "X"), ReplaceChar(b, 'e', "X"), '\n', "<< \n");
  }

  /** The output holds no `e`, grows by three characters per newline, and
      keeps its newlines. */
  lemma {:induction false} LemmaDemoOutput(s: string)
    ensures 'e' !in DemoProcess(s)
    ensures |DemoProcess(s)| == |s| + 3 * CountChar(s, '\n')
    ensures CountChar(DemoProcess(s), '\n') == CountChar(s, '\n')
  {
    if |s| > 0 {
      LemmaDemoOutput(s[1..]);
      assert s == [s[0]] + s[1..];
      LemmaDemoCons(s[0], s[1..]);
      LemmaCountCharAppend(DemoChar(s[0]), DemoProcess(s[1..]), '\n');
      var d := DemoChar(s[0]);
      assert CountChar(d, '\n') == (if s[0] == '\n' then 1 else 0) by {
        if s[0] == '\n' {
          assert d[1..][1..][1..][1..] == "";
        } else {
          assert d[1..] == "";
        }
      }
    } else {
      assert DemoProcess(s) == "";
    }
  }

  /** Applying `demo_process` twice differs from applying it once as soon
      as there is a newline: each newline gains a second marker. */
  lemma LemmaDemoNotIdempotent(s: string)
    requires '\n' in s
    ensures DemoProcess(DemoProcess(s)) != DemoProcess(s)
  {
    LemmaDemoOutput(s);
    LemmaDemoOutput(DemoProcess(s));
    LemmaCountCharZero(s, '\n');
  }

  /** `demo_process` as a processing function: it keeps no state. */
  function DemoHandler(u: (), data: string): ((), string) {
    (u, DemoProcess(data))
  }

  /** The whole run of the demo: stdout is `demo_process` of everything
      read, which after the exit is everything sent. */
  lemma {:induction false} LemmaDemoApply(chunks: seq<string>)
    ensures Apply(DemoHandler, (), chunks).1 == DemoProcess(Flatten(chunks))
    decreases |chunks|
  {
    if |chunks| == 0 {
      assert DemoProcess("") == "";
    } else {
      var init := chunks[..|chunks| - 1];
      var last := chunks[|chunks| - 1];
      LemmaDemoApply(init);
      assert chunks == init + [last];
      LemmaFlattenAppend(init, [last]);
      assert Flatten([last]) == last;
      LemmaDemoAppend(Flatten(init), last);
    }
  }

  /** The line the demo prints before it starts the loop. */
  const DemoBanner: string := "Demo EC. 'e' will be replaced with 'X', with '<<' added to line end.\n"

  /** `python3 ec_main.py`: the loop has always written `demo_process` of
      the text read so far. On a terminal stdout is the banner followed by
      that text. After the exit the text is `demo_process` of everything
      sent, and on a pipe the banner follows it. */
  lemma LemmaDemoRun(events: seq<Event>)
    ensures var s := Run(DemoHandler, Start(()), events);
            && s.out == DemoProcess(Flatten(s.chunks))
            && Stdout(DemoBanner, Terminal, s) == DemoBanner + DemoProcess(Flatten(s.chunks))
            && (s.done ==> Stdout(DemoBanner, Terminal, s) == DemoBanner + DemoProcess(Arrived(events)))
            && (s.done ==> Stdout(DemoBanner, Piped, s) == DemoProcess(Arrived(events)) + DemoBanner)
            && (!s.done ==> Stdout(DemoBanner, Piped, s) == DemoProcess(Flatten(s.chunks)))
  {
    var s := Run(DemoHandler, Start(()), events);
    LemmaRun(DemoHandler, (), events);
    LemmaDemoApply(s.chunks);
    if s.done {
      assert Flatten(s.chunks) + "" == Flatten(s.chunks);
    } else {
      assert s.out + "" == s.out;
    }
  }

  /** `e` and a newline come out as `X<< ` and the newline: the marker
      goes before the newline, with the space after it. */
  lemma LemmaDemoMarker()
    ensures DemoProcess("e\n") == "X<< \n"
  {
    LemmaDemoCons('e', "\n");
    LemmaDemoCons('\n', "");
    assert DemoProcess("") == "";
  }
}

=== FILE: ec_save.dfy ===
/** The logging handler of ec_save.py: every chunk is appended to the log
    file and passed on unchanged. The log file is the handler's state; its
    name (`test.log`, relative to the working directory) and the file
    handle are not modelled. */
module EcSave {
  import opened Text
  import opened EcMain

  /** `save_stderr`: the log gains the chunk, whatever its length, and the
      chunk is returned as it came. */
  function SaveStderr(log: string, data: string): (r: (string, string))
    ensures r.1 == data
    ensures |r.0| == |log| + |data| && r.0[..|log|] == log && r.0[|log|..] == data
  {
    (log + data, data)
  }

  /** Applied to a sequence of chunks, the log grows by their
      concatenation and the output is that same concatenation. */
  lemma {:induction false} LemmaSaveApply(log: string, chunks: seq<string>)
    ensures Apply(SaveStderr, log, chunks) == (log + Flatten(chunks), Flatten(chunks))
    decreases |chunks|
  {
    if |chunks| == 0 {
      assert log + "" == log;
    } else {
      var init := chunks[..|chunks| - 1];
      var last := chunks[|chunks| - 1];
      LemmaSaveApply(log, init);
      assert chunks == init + [last];
      LemmaFlattenAppend(init, [last]);
      assert Flatten([last]) == last;
      assert log + Flatten(init) + last == log + (Flatten(init) + last);
    }
  }

  /** The line the handler prints before it starts the loop. */
  const SaveBanner: string := "Demo EC. Saving stderr to log file.\n"

  /** `python3 ec_save.py`: at every moment the loop has written exactly
      what has been read and the log has grown by the same text. On a
      terminal stdout is the banner followed by that text. Once the loop
      has exited, the text is everything sent before the writer closed,
      and on a pipe the banner follows it. */
  lemma LemmaSaveRun(log: string, events: seq<Event>)
    ensures var s := Run(SaveStderr, Start(log), events);
            && s.out == Flatten(s.chunks)
            && s.plugin == log + s.out
            && Stdout(SaveBanner, Terminal, s) == SaveBanner + Flatten(s.chunks)
            && (s.done ==> s.out == Arrived(events) && s.plugin == log + Arrived(events))
            && (s.done ==> Stdout(SaveBanner, Piped, s) == Arrived(events) + SaveBanner)
            && (!s.done ==> Stdout(SaveBanner, Piped, s) == Flatten(s.chunks))
  {
    var s := Run(SaveStderr, Start(log), events);
    LemmaRun(SaveStderr, log, events);
    LemmaSaveApply(log, s.chunks);
    if s.done {
      assert Flatten(s.chunks) + "" == Flatten(s.chunks);
    } else {
      assert s.out + "" == s.out;
    }
  }

  /** Three one-character chunks are all logged: nothing is skipped for
      being short. */
  lemma LemmaSingleCharactersLogged()
    ensures Apply(SaveStderr, "", ["a", "b", "c"]) == ("abc", "abc")
  {
    LemmaSaveApply("", ["a", "b", "c"]);
    assert Flatten(["a", "b", "c"]) == "abc";
  }
}

=== FILE: extension.dfy ===
/** The bookkeeping of the VS Code extension (vscode-extension/src/extension.ts):
    reporting new Error diagnostics once per snapshot, building the Stack
    Overflow query, and starting a log tail for every new or restarted
    Docker container. The editor, the webview, the Stack Overflow request
    and the processes run are not modelled: each operation returns what it
    would post or start. */
module Extension {
  import opened Wrappers
  import opened Text
  import opened Classifier

  // ---- Stack Overflow query ----

  /** `title.split(" ").join(" OR ")`. */
  function SoQuery(title: string): (q: string)
    ensures q == ReplaceChar(title, ' ', " OR ")
  {
    LemmaJoinSplit(title, ' ', " OR ");
    Join(Split(title, ' '), " OR ")
  }

  /** The query keeps every character but the spaces, and each space
      becomes ` OR `, so it grows by three characters per space. */
  lemma LemmaSoQueryLength(title: string)
    ensures |SoQuery(title)| == |title| + 3 * CountChar(title, ' ')
  {
    LemmaReplaceCharLength(title, ' ', " OR ");
  }

  /** A title without spaces is its own query. */
  lemma LemmaSoQueryOneWord(title: string)
    requires ' ' !in title
    ensures SoQuery(title) == title
  {
    LemmaReplaceCharAbsent(title, ' ', " OR ");
  }

  /** What the extension sends for one error: the message to the webview
      and the Stack Overflow query. */
  datatype Post = Post(error: FoundError, query: string)

  /** `_handleError`: post the error and query Stack Overflow with its title. */
  function HandleError(e: FoundError): (p: Post)
    ensures p.error == e
    ensures p.query == ReplaceChar(e.title, ' ', " OR ")
  {
    Post(e, SoQuery(e.title))
  }

  // ---- Diagnostics ----

  datatype Severity = Error | Warning | Information | Hint

  /** A diagnostic's `code`: absent, a string, a number, or an object with
      a value and a target. */
  datatype DiagCode = NoCode | StrCode(s: string) | NumCode(n: int) | ObjCode

  datatype Diagnostic = Diagnostic(severity: Severity, code: DiagCode, message: string, source: Option<string>)

  /** One entry of `vscode.languages.getDiagnostics()`. */
  datatype UriDiagnostics = UriDiagnostics(path: string, diagnostics: seq<Diagnostic>)

  function DigitChar(d: int): char
    requires 0 <= d < 10
  {
    ('0' as int + d) as char
  }

  predicate IsDigit(c: char) {
    '0' <= c <= '9'
  }

  /** The number a string of decimal digits denotes. */
  function DecimalValue(s: string): nat
    requires forall i :: 0 <= i < |s| ==> IsDigit(s[i])
    decreases |s|
  {
    if |s| == 0 then 0
    else
      assert IsDigit(s[|s| - 1]);
      DecimalValue(s[..|s| - 1]) * 10 + (s[|s| - 1] as int - '0' as int)
  }

  /** The decimal digits of `n`, without leading zeros: they read back
      as `n`. */
  function NatToDecimal(n: nat): (s: string)
    ensures |s| > 0 && forall i :: 0 <= i < |s| ==> IsDigit(s[i])
    ensures DecimalValue(s) == n
    ensures s[0] == '0' ==> s == "0"
    decreases n
  {
    if n < 10 then
      var s := [DigitChar(n)];
      assert s[..0] == "";
      s
    else
      var prefix := NatToDecimal(n / 10);
      var s := prefix + [DigitChar(n % 10)];
      assert s[..|s| - 1] == prefix;
      s
  }

  /** How a template literal prints the code. A number code prints as its
      decimal digits, after a minus sign when negative, as JavaScript
      prints every integer below 10^21 in magnitude; fractional codes and
      the exponent form of larger numbers are not modelled. */
  function CodeText(c: DiagCode): (r: string)
    ensures c.NumCode? && c.n >= 0 ==>
              && |r| > 0
              && (forall i :: 0 <= i < |r| ==> IsDigit(r[i]))
              && DecimalValue(r) == c.n
              && (r[0] == '0' ==> r == "0")
    ensures c.NumCode? && c.n < 0 ==>
              && |r| >= 2 && r[0] == '-'
              && (forall i :: 1 <= i < |r| ==> IsDigit(r[i]))
              && DecimalValue(r[1..]) == -c.n
  {
    match c
    case NoCode => "undefined"
    case StrCode(s) => s
    case NumCode(n) =>
      if n < 0 then
        var digits := NatToDecimal(-n);
        var r := "-" + digits;
        assert r[1..] == digits;
        r
      else NatToDecimal(n)
    case ObjCode => "[object Object]"
  }

  /** Two number codes print alike only when they are equal. */
  lemma LemmaNumCodeText(n: int, m: int)
    requires n != m
    ensures CodeText(NumCode(n)) != CodeText(NumCode(m))
  {
  }

  /** A diagnostic with the path of its file, as the nested loops visit it. */
  datatype Entry = Entry(path: string, diagnostic: Diagnostic)

  /** `${thisUri.path}-${thisDiagnostic.code}`. */
  function DiagnosticId(e: Entry): string {
    e.path + "-" + CodeText(e.diagnostic.code)
  }

  /** Path and code are joined by a dash that may also occur in either, so
      a diagnostic in one file can share its id with a diagnostic of
      another code in another file. */
  lemma LemmaIdCollision(path: string, left: string, right: string, d1: Diagnostic, d2: Diagnostic)
    requires d1.code == StrCode(left + "-" + right) && d2.code == StrCode(right)
    ensures path != path + "-" + left
    ensures DiagnosticId(Entry(path, d1)) == DiagnosticId(Entry(path + "-" + left, d2))
  {
    assert |path + "-" + left| > |path|;
    assert path + "-" + (left + "-" + right) == (path + "-" + left) + "-" + right;
  }

  /** A string code and a number code can print alike, and then share an
      id in the same file. */
  lemma LemmaStrNumCodeCollision(path: string, d1: Diagnostic, d2: Diagnostic)
    requires d1.code == StrCode("7") && d2.code == NumCode(7)
    ensures d1.code != d2.code
    ensures DiagnosticId(Entry(path, d1)) == DiagnosticId(Entry(path, d2))
  {
    assert CodeText(NumCode(7)) == [DigitChar(7)];
  }

  predicate IsError(e: Entry) {
    e.diagnostic.severity == Error
  }

  /** The record posted for a new problem, with its query. */
  function PostFor(e: Entry): Post {
    var m := e.diagnostic.message;
    HandleError(FoundError(Some(e.path), None, None, e.diagnostic.source, m, m, Some([m])))
  }

  function EntriesOf(u: UriDiagnostics): (es: seq<Entry>)
    ensures |es| == |u.diagnostics|
    ensures forall i :: 0 <= i < |es| ==> es[i] == Entry(u.path, u.diagnostics[i])
  {
    seq(|u.diagnostics|, i requires 0 <= i < |u.diagnostics| => Entry(u.path, u.diagnostics[i]))
  }

  /** All diagnostics in visiting order. */
  function Entries(tuples: seq<UriDiagnostics>): seq<Entry>
    decreases |tuples|
  {
    if |tuples| == 0 then [] else Entries(tuples[..|tuples| - 1]) + EntriesOf(tuples[|tuples| - 1])
  }

  /** The ids of the Error entries: the next snapshot's keys. */
  function ErrorIds(es: seq<Entry>): set<string>
    decreases |es|
  {
    if |es| == 0 then {}
    else
      var e := es[|es| - 1];
      ErrorIds(es[..|es| - 1]) + (if IsError(e) then {DiagnosticId(e)} else {})
  }

  /** The snapshot holds an id exactly when some Error diagnostic has it. */
  lemma {:induction false} LemmaErrorIds(es: seq<Entry>)
    ensures forall id :: id in ErrorIds(es) <==> exists i :: 0 <= i < |es| && IsError(es[i]) && DiagnosticId(es[i]) == id
    decreases |es|
  {
    if |es| > 0 {
      var init := es[..|es| - 1];
      LemmaErrorIds(init);
      assert forall i :: 0 <= i < |init| ==> init[i] == es[i];
    }
  }

  lemma LemmaErrorIdsSnoc(es: seq<Entry>, e: Entry)
    ensures ErrorIds(es + [e]) == ErrorIds(es) + (if IsError(e) then {DiagnosticId(e)} else {})
  {
    assert (es + [e])[..|es|] == es;
  }

  lemma LemmaEntriesSnoc(tuples: seq<UriDiagnostics>, t: nat)
    requires t < |tuples|
    ensures Entries(tuples[..t + 1]) == Entries(tuples[..t]) + EntriesOf(tuples[t])
  {
    assert tuples[..t + 1][..t] == tuples[..t];
  }

  /** The posts of one pass: every Error entry whose id the previous
      snapshot lacks, in visiting order. */
  function Reported(prev: set<string>, es: seq<Entry>): seq<Post>
    decreases |es|
  {
    if |es| == 0 then []
    else
      Reported(prev, es[..|es| - 1]) + ReportOne(prev, es[|es| - 1])
  }

  /** What one entry contributes to the posts. */
  function ReportOne(prev: set<string>, e: Entry): seq<Post> {
    if IsError(e) && DiagnosticId(e) !in prev then [PostFor(e)] else []
  }

  lemma LemmaReportedSnoc(prev: set<string>, es: seq<Entry>, e: Entry)
    ensures Reported(prev, es + [e]) == Reported(prev, es) + ReportOne(prev, e)
  {
    assert (es + [e])[..|es|] == es;
  }

  lemma {:induction false} LemmaErrorIdsAppend(a: seq<Entry>, b: seq<Entry>)
    ensures ErrorIds(a + b) == ErrorIds(a) + ErrorIds(b)
    decreases |b|
  {
    if |b| == 0 {
      assert a + b == a;
    } else {
      var init := b[..|b| - 1];
      LemmaErrorIdsAppend(a, init);
      assert a + b == (a + init) + [b[|b| - 1]];
      LemmaErrorIdsSnoc(a + init, b[|b| - 1]);
    }
  }

  lemma LemmaReportedAppendStep(prev: set<string>, a: seq<Entry>, init: seq<Entry>, last: Entry)
    requires Reported(prev, a + init) == Reported(prev, a) + Reported(prev, init)
    ensures Reported(prev, a + (init + [last])) == Reported(prev, a) + Reported(prev, init + [last])
  {
    var ra, ri, ro := Reported(prev, a), Reported(prev, init), ReportOne(prev, last);
    assert Reported(prev, a + (init + [last])) == (ra + ri) + ro by {
      assert a + (init + [last]) == (a + init) + [last];
      LemmaReportedSnoc(prev, a + init, last);
    }
    assert Reported(prev, init + [last]) == ri + ro by {
      LemmaReportedSnoc(prev, init, last);
    }
    LemmaConcatAssoc(ra, ri, ro);
  }

  lemma {:induction false} LemmaReportedAppend(prev: set<string>, a: seq<Entry>, b: seq<Entry>)
    ensures Reported(prev, a + b) == Reported(prev, a) + Reported(prev, b)
    decreases |b|
  {
    if |b| == 0 {
      assert a + b == a;
    } else {
      var init := b[..|b| - 1];
      assert b == init + [b[|b| - 1]];
      LemmaReportedAppend(prev, a, init);
      LemmaReportedAppendStep(prev, a, init, b[|b| - 1]);
    }
  }

  lemma LemmaTakeSnoc<T>(s: seq<T>, d: nat)
    requires d < |s|
    ensures s[..d + 1] == s[..d] + [s[d]]
  {
  }

  /** The inner loop of `_exportDiagnostics`, over the diagnostics of one
      file: the Error ids it adds to the snapshot and the posts it makes.
      Diagnostics of other severities are skipped, and an id already in
      the previous snapshot is recorded but not posted. */
  method ExportUri(prev: set<string>, u: UriDiagnostics) returns (ids: set<string>, posts: seq<Post>)
    ensures ids == ErrorIds(EntriesOf(u))
    ensures posts == Reported(prev, EntriesOf(u))
  {
    ids := {};
    posts := [];
    var d := 0;
    while d < |u.diagnostics|
      invariant 0 <= d <= |u.diagnostics|
      invariant ids == ErrorIds(EntriesOf(u)[..d])
      invariant posts == Reported(prev, EntriesOf(u)[..d])
    {
      var e := Entry(u.path, u.diagnostics[d]);
      LemmaTakeSnoc(EntriesOf(u), d);
      LemmaErrorIdsSnoc(EntriesOf(u)[..d], e);
      LemmaReportedSnoc(prev, EntriesOf(u)[..d], e);
      if e.diagnostic.severity == Error {
        var id := DiagnosticId(e);
        ids := ids + {id};
        if id !in prev {
          posts := posts + [PostFor(e)];
        }
      }
      d := d + 1;
    }
    assert EntriesOf(u)[..d] == EntriesOf(u);
  }

  /** `_exportDiagnostics`, with the loops of the source: the new snapshot
      holds the ids of exactly the current Error diagnostics, and the
      posts are the Error diagnostics the previous snapshot did not
      hold, in order. */
  method ExportDiagnostics(prev: set<string>, tuples: seq<UriDiagnostics>) returns (next: set<string>, posts: seq<Post>)
    ensures next == ErrorIds(Entries(tuples))
    ensures posts == Reported(prev, Entries(tuples))
  {
    next := {};
    posts := [];
    var t := 0;
    while t < |tuples|
      invariant 0 <= t <= |tuples|
      invariant next == ErrorIds(Entries(tuples[..t]))
      invariant posts == Reported(prev, Entries(tuples[..t]))
    {
      var ids, uriPosts := ExportUri(prev, tuples[t]);
      LemmaEntriesSnoc(tuples, t);
      LemmaErrorIdsAppend(Entries(tuples[..t]), EntriesOf(tuples[t]));
      LemmaReportedAppend(prev, Entries(tuples[..t]), EntriesOf(tuples[t]));
      next := next + ids;
      posts := posts + uriPosts;
      t := t + 1;
    }
    assert tuples[..t] == tuples;
  }

  /** A post comes from an Error diagnostic that was new, and every new
      Error diagnostic is posted. */
  lemma {:induction false} LemmaReportedIff(prev: set<string>, es: seq<Entry>)
    ensures forall p :: p in Reported(prev, es) ==>
              exists i :: 0 <= i < |es| && IsError(es[i]) && DiagnosticId(es[i]) !in prev && p == PostFor(es[i])
    ensures forall i :: 0 <= i < |es| && IsError(es[i]) && DiagnosticId(es[i]) !in prev ==>
              PostFor(es[i]) in Reported(prev, es)
    decreases |es|
  {
    if |es| > 0 {
      var init := es[..|es| - 1];
      var e := es[|es| - 1];
      LemmaReportedIff(prev, init);
      var rs := Reported(prev, es);
      assert rs == Reported(prev, init) + ReportOne(prev, e);
      forall p | p in rs
        ensures exists i :: 0 <= i < |es| && IsError(es[i]) && DiagnosticId(es[i]) !in prev && p == PostFor(es[i])
      {
        if p in Reported(prev, init) {
          var i :| 0 <= i < |init| && IsError(init[i]) && DiagnosticId(init[i]) !in prev && p == PostFor(init[i]);
          assert es[i] == init[i];
        } else {
          assert p in ReportOne(prev, e);
        }
      }
      forall i | 0 <= i < |es| && IsError(es[i]) && DiagnosticId(es[i]) !in prev
        ensures PostFor(es[i]) in rs
      {
        if i < |init| {
          assert init[i] == es[i];
        }
      }
    }
  }

  /** Diagnostics of other severities never change the posts. */
  lemma LemmaNonErrorsIgnored(prev: set<string>, es: seq<Entry>, e: Entry)
    requires !IsError(e)
    ensures Reported(prev, es + [e]) == Reported(prev, es)
    ensures ErrorIds(es + [e]) == ErrorIds(es)
  {
    LemmaReportedSnoc(prev, es, e);
    LemmaErrorIdsSnoc(es, e);
  }

  /** The snapshot of the pass in progress does not suppress anything: two
      Error diagnostics with the same new id in one pass are both posted. */
  lemma LemmaDuplicatesBothPosted(prev: set<string>, es: seq<Entry>, e: Entry)
    requires IsError(e) && DiagnosticId(e) !in prev
    ensures Reported(prev, es + [e, e]) == Reported(prev, es) + [PostFor(e), PostFor(e)]
  {
    LemmaReportedSnoc(prev, es, e);
    LemmaReportedSnoc(prev, es + [e], e);
    assert es + [e] + [e] == es + [e, e];
  }

  /** A problem that disappears for one pass and then returns is posted
      again: only the last pass's Error ids suppress a post. */
  lemma LemmaReappearing(middle: seq<Entry>, later: seq<Entry>, i: nat)
    requires i < |later| && IsError(later[i])
    requires forall j :: 0 <= j < |middle| && IsError(middle[j]) ==> DiagnosticId(middle[j]) != DiagnosticId(later[i])
    ensures PostFor(later[i]) in Reported(ErrorIds(middle), later)
  {
    LemmaErrorIds(middle);
    LemmaReportedIff(ErrorIds(middle), later);
  }

  // ---- Docker containers ----

  predicate IsCrLf(c: char) {
    c == '\r' || c == '\n'
  }

  /** The current run closed off: nothing when it is empty. */
  function CloseRun(cur: string): seq<string> {
    if cur == "" then [] else [cur]
  }

  /** `/[^\r\n]+/g` matching from the start of `s`, with `cur` the run
      collected so far. */
  function RunsFrom(s: string, cur: string): seq<string>
    decreases |s|
  {
    if |s| == 0 then CloseRun(cur)
    else if IsCrLf(s[0]) then CloseRun(cur) + RunsFrom(s[1..], "")
    else RunsFrom(s[1..], cur + [s[0]])
  }

  /** `stdout.match(/[^\r\n]+/g) || []`: the maximal runs without CR or LF. */
  function Runs(s: string): seq<string> {
    RunsFrom(s, "")
  }

  lemma {:induction false} LemmaRunsFromPlain(a: string, cur: string)
    requires forall k :: 0 <= k < |a| ==> !IsCrLf(a[k])
    ensures RunsFrom(a, cur) == CloseRun(cur + a)
    decreases |a|
  {
    if |a| > 0 {
      LemmaRunsFromPlain(a[1..], cur + [a[0]]);
      assert cur + [a[0]] + a[1..] == cur + a;
    } else {
      assert cur + a == cur;
    }
  }

  lemma {:induction false} LemmaRunsFromBreak(a: string, c: char, b: string, cur: string)
    requires IsCrLf(c)
    ensures RunsFrom(a + [c] + b, cur) == RunsFrom(a, cur) + Runs(b)
    decreases |a|
  {
    if |a| == 0 {
      assert a + [c] + b == [c] + b;
      assert ([c] + b)[1..] == b;
    } else {
      assert (a + [c] + b)[1..] == a[1..] + [c] + b;
      LemmaRunsFromBreak(a[1..], c, b, if IsCrLf(a[0]) then "" else cur + [a[0]]);
    }
  }

  /** `Runs` is characterised by three facts: no runs in the empty
      output, a non-empty line without breaks is one run, and a CR or LF
      separates the runs before it from those after it. */
  lemma LemmaRuns(a: string, c: char, b: string)
    ensures Runs("") == []
    ensures |a| > 0 && (forall k :: 0 <= k < |a| ==> !IsCrLf(a[k])) ==> Runs(a) == [a]
    ensures IsCrLf(c) ==> Runs(a + [c] + b) == Runs(a) + Runs(b)
  {
    if |a| > 0 && (forall k :: 0 <= k < |a| ==> !IsCrLf(a[k])) {
      LemmaRunsFromPlain(a, "");
      assert "" + a == a;
    }
    if IsCrLf(c) {
      LemmaRunsFromBreak(a, c, b, "");
    }
  }

  /** `const [name, createdAt] = line.split(",")`: the first field, and the
      second one if there is a comma. */
  function NameField(line: string): (name: string)
    ensures IsFirstPiece(name, line, ',')
  {
    LemmaSplitFirstPiece(line, ',');
    Split(line, ',')[0]
  }

  function CreatedField(line: string): (createdAt: Option<string>)
    ensures createdAt.None? <==> ',' !in line
    ensures createdAt.Some? ==> IsFirstPiece(createdAt.value, line[|NameField(line)| + 1..], ',')
  {
    var fields := Split(line, ',');
    LemmaSplitCount(line, ',');
    LemmaCountCharZero(line, ',');
    if |fields| > 1 then
      LemmaSplitSecondPiece(line, ',');
      Some(fields[1])
    else None
  }

  /** `_knownDocker.get(name)`: an absent name reads as `undefined`, the
      same as a name stored with an `undefined` creation time. */
  function Get(known: map<string, Option<string>>, name: string): Option<string> {
    if name in known then known[name] else None
  }

  /** The known containers after one pass and the containers whose logs
      get tailed, in order. */
  datatype DockerPass = DockerPass(known: map<string, Option<string>>, started: seq<string>)

  /** The body of the `forEach`: a container with a name whose recorded
      creation time differs is recorded and tailed. */
  function CheckLine(known: map<string, Option<string>>, line: string): (r: DockerPass)
    ensures r.started != [] <==> NameField(line) != "" && Get(known, NameField(line)) != CreatedField(line)
    ensures r.started != [] ==> r.started == [NameField(line)]
    ensures NameField(line) != "" ==> Get(r.known, NameField(line)) == CreatedField(line)
    ensures forall n :: n != NameField(line) ==> Get(r.known, n) == Get(known, n)
    ensures r.started == [] ==> r.known == known
  {
    var name := NameField(line);
    var createdAt := CreatedField(line);
    if name != "" && Get(known, name) != createdAt then DockerPass(known[name := createdAt], [name])
    else DockerPass(known, [])
  }

  /** The names the lines of a `docker ps` output give. */
  function Names(lines: seq<string>): set<string> {
    set i | 0 <= i < |lines| :: NameField(lines[i])
  }

  /** The lines processed in order: at most one tail per line, always for
      a named container, and a container no line names keeps its record. */
  function CheckLines(known: map<string, Option<string>>, lines: seq<string>): (r: DockerPass)
    ensures |r.started| <= |lines|
    ensures forall k :: 0 <= k < |r.started| ==> r.started[k] != "" && r.started[k] in Names(lines)
    ensures forall n :: n !in Names(lines) ==> Get(r.known, n) == Get(known, n)
    decreases |lines|
  {
    if |lines| == 0 then DockerPass(known, [])
    else
      var init := lines[..|lines| - 1];
      var before := CheckLines(known, init);
      var step := CheckLine(before.known, lines[|lines| - 1]);
      assert Names(lines) == Names(init) + {NameField(lines[|lines| - 1])} by {
        forall n | n in Names(lines)
          ensures n in Names(init) || n == NameField(lines[|lines| - 1])
        {
          var i :| 0 <= i < |lines| && NameField(lines[i]) == n;
          if i < |lines| - 1 {
            assert init[i] == lines[i];
          }
        }
        forall n | n in Names(init)
          ensures n in Names(lines)
        {
          var i :| 0 <= i < |init| && NameField(init[i]) == n;
          assert lines[i] == init[i];
        }
      }
      DockerPass(step.known, before.started + step.started)
  }

  /** How `docker ps` ended. */
  datatype DockerPs = PsOk(stdout: string) | PsFailed(message: string)

  /** `_checkForDockerInstances`: a failure of `docker ps` itself means
      Docker is not running and changes nothing; any other failure is
      rethrown; otherwise every output line is checked in order. */
  function CheckForDocker(known: map<string, Option<string>>, ps: DockerPs): (r: Result<DockerPass, string>)
    ensures ps.PsFailed? && LiteralAt(ps.message, 0, "Command failed: docker ps") ==> r == Success(DockerPass(known, []))
    ensures ps.PsFailed? && !LiteralAt(ps.message, 0, "Command failed: docker ps") ==> r == Failure(ps.message)
    ensures ps.PsOk? ==> r.Success? && r.value == CheckLines(known, Runs(ps.stdout))
  {
    match ps
    case PsFailed(message) =>
      if LiteralAt(message, 0, "Command failed: docker ps") then Success(DockerPass(known, [])) else Failure(message)
    case PsOk(stdout) => Success(CheckLines(known, Runs(stdout)))
  }

  /** A line without a comma for a container never seen starts nothing:
      both sides of the comparison are `undefined`. */
  lemma LemmaNoCommaUnknown(known: map<string, Option<string>>, line: string)
    requires ',' !in line && NameField(line) !in known
    ensures CheckLine(known, line) == DockerPass(known, [])
  {
  }

  /** No two lines name the same container. */
  predicate UniqueNames(lines: seq<string>) {
    forall i, j :: 0 <= i < j < |lines| ==> NameField(lines[i]) != NameField(lines[j])
  }

  /** After a pass over lines with distinct names, every named container
      is recorded with the creation time of its line, and other names are
      as before. */
  lemma {:induction false} LemmaCheckLinesRecords(known: map<string, Option<string>>, lines: seq<string>)
    requires UniqueNames(lines)
    ensures forall i :: 0 <= i < |lines| && NameField(lines[i]) != "" ==>
              Get(CheckLines(known, lines).known, NameField(lines[i])) == CreatedField(lines[i])
    decreases |lines|
  {
    if |lines| > 0 {
      var init := lines[..|lines| - 1];
      assert UniqueNames(init) by {
        assert forall i :: 0 <= i < |init| ==> init[i] == lines[i];
      }
      LemmaCheckLinesRecords(known, init);
      var last := lines[|lines| - 1];
      var after := CheckLine(CheckLines(known, init).known, last).known;
      assert CheckLines(known, lines).known == after;
      forall i | 0 <= i < |lines| && NameField(lines[i]) != ""
        ensures Get(after, NameField(lines[i])) == CreatedField(lines[i])
      {
        if i < |init| {
          assert init[i] == lines[i];
          assert NameField(lines[i]) != NameField(last);
        }
      }
    }
  }

  /** Lines whose containers are all recorded as they are start nothing
      and change nothing. */
  lemma {:induction false} LemmaCheckLinesStable(known: map<string, Option<string>>, lines: seq<string>)
    requires forall i :: 0 <= i < |lines| && NameField(lines[i]) != "" ==> Get(known, NameField(lines[i])) == CreatedField(lines[i])
    ensures CheckLines(known, lines) == DockerPass(known, [])
    decreases |lines|
  {
    if |lines| > 0 {
      var init := lines[..|lines| - 1];
      assert forall i :: 0 <= i < |init| ==> init[i] == lines[i];
      LemmaCheckLinesStable(known, init);
    }
  }

  /** Polling again with the same `docker ps` output whose container names
      are distinct starts no second tail. */
  lemma LemmaSecondPassQuiet(known: map<string, Option<string>>, stdout: string)
    requires UniqueNames(Runs(stdout))
    ensures var first := CheckForDocker(known, PsOk(stdout)).value;
            CheckForDocker(first.known, PsOk(stdout)) == Success(DockerPass(first.known, []))
  {
    var first := CheckLines(known, Runs(stdout));
    LemmaCheckLinesRecords(known, Runs(stdout));
    LemmaCheckLinesStable(first.known, Runs(stdout));
  }
}

=== FILE: installer.dfy ===
/** The shell-configuration editing of ec-monitor/src/installer.js: choosing
    the config file and source line for a shell, appending the three-line
    block once, and removing marked lines again.

    The file system is a value: the content of one file, or its absence,
    or a read error. `untildify` and `path.join` are parameters, and the
    system shell is passed in where the source would ask for it. */
module Installer {
  import opened Wrappers
  import opened Text

  // ---- Constants (ec-monitor/src/constants.js) ----

  const BashLocation: string := "~/.bashrc"
  const ZshLocation: string := "~/.zshrc"
  const FishLocation: string := "~/.config/fish/config.fish"

  /** The shells the installer knows; every other shell name falls back
      to a Bash form. */
  datatype Shell = Bash | Zsh | Fish

  function KnownShell(shell: string): (k: Option<Shell>)
    ensures k == Some(Bash) <==> shell == "bash"
    ensures k == Some(Zsh) <==> shell == "zsh"
    ensures k == Some(Fish) <==> shell == "fish"
  {
    if shell == "bash" then Some(Bash)
    else if shell == "zsh" then Some(Zsh)
    else if shell == "fish" then Some(Fish)
    else None
  }

  /** The shell whose template `scriptFromShell` and `sourceLineForShell`
      use: the shell itself when it is zsh or fish, Bash otherwise. */
  function TemplateShell(shell: string): (t: Shell)
    ensures t == Zsh <==> shell == "zsh"
    ensures t == Fish <==> shell == "fish"
  {
    match KnownShell(shell)
    case Some(Zsh) => Zsh
    case Some(Fish) => Fish
    case _ => Bash
  }

  // ---- Shell-to-string mappings ----

  /** `scriptFromShell`: the shell's completion script under the package's
      `src/scripts` directory, with `bash.sh` for every shell but zsh and
      fish. */
  function ScriptFromShell(join: (string, string) -> string, dirname: string, shell: string): (r: string)
    ensures shell == "zsh" ==> r == join(dirname, "../src/scripts/zsh.sh")
    ensures shell == "fish" ==> r == join(dirname, "../src/scripts/fish.sh")
    ensures shell != "zsh" && shell != "fish" ==> r == join(dirname, "../src/scripts/bash.sh")
  {
    match TemplateShell(shell)
    case Fish => join(dirname, "../src/scripts/fish.sh")
    case Zsh => join(dirname, "../src/scripts/zsh.sh")
    case Bash => join(dirname, "../src/scripts/bash.sh")
  }

  /** `isInShellConfig`: one of the three config locations, written with a
      tilde or expanded. */
  predicate IsInShellConfig(untildify: string -> string, filename: string) {
    filename in [BashLocation, ZshLocation, FishLocation,
                 untildify(BashLocation), untildify(ZshLocation), untildify(FishLocation)]
  }

  /** `locationFromShell`: the expanded config file of a known shell, and
      for an unknown shell the literal `~/.bashrc`, not expanded. Either
      way the result is a shell config file. */
  function LocationFromShell(untildify: string -> string, shell: string): (r: string)
    ensures IsInShellConfig(untildify, r)
    ensures KnownShell(shell).None? ==> r == BashLocation
    ensures KnownShell(shell) == Some(Bash) ==> r == untildify(BashLocation)
    ensures KnownShell(shell) == Some(Zsh) ==> r == untildify(ZshLocation)
    ensures KnownShell(shell) == Some(Fish) ==> r == untildify(FishLocation)
  {
    match KnownShell(shell)
    case Some(Bash) => untildify(BashLocation)
    case Some(Zsh) => untildify(ZshLocation)
    case Some(Fish) => untildify(FishLocation)
    case None => BashLocation
  }

  /** `sourceLineForShell`: a line that sources the script if it exists
      and never fails. The script name occurs in it, and every shell but
      zsh and fish gets the Bash form. */
  function SourceLineForShell(script: string, shell: string): (r: string)
    ensures Contains(r, script)
    ensures shell == "fish" ==> r == "[ -f " + script + " ]; and . " + script + "; or true"
    ensures shell == "zsh" ==> r == "[[ -f " + script + " ]] && . " + script + " || true"
    ensures shell != "zsh" && shell != "fish" ==> r == "[ -f " + script + " ] && . " + script + " || true"
  {
    var r := match TemplateShell(shell)
      case Fish => "[ -f " + script + " ]; and . " + script + "; or true"
      case Zsh => "[[ -f " + script + " ]] && . " + script + " || true"
      case Bash => "[ -f " + script + " ] && . " + script + " || true";
    var at := if TemplateShell(shell) == Zsh then 6 else 5;
    assert r[at..at + |script|] == script;
    assert LiteralAt(r, at, script);
    r
  }

  // ---- Installing ----

  /** The first comment line. It is written as three literals so that
      each can be checked character by character. */
  const LaunchComment: string := "# Launch error-central monitoring: " + "https://github.com/" + "error-central/error-central"
  const UninstallComment: string := "# Uninstall by removing these 3 lines"

  /** The two comment lines, each after its newline, and the newline that
      starts the source line. */
  const BlockHead: string := "\n" + LaunchComment + "\n" + UninstallComment + "\n"

  /** The comment lines hold neither a newline nor a `k`. */
  lemma LemmaCommentChars()
    ensures '\n' !in LaunchComment && 'k' !in LaunchComment
    ensures '\n' !in UninstallComment && 'k' !in UninstallComment
  {
    var launch := "# Launch error-central monitoring: ";
    forall i | 0 <= i < |launch|
      ensures launch[i] != '\n' && launch[i] != 'k'
    {
    }
    var host := "https://github.com/";
    forall i | 0 <= i < |host|
      ensures host[i] != '\n' && host[i] != 'k'
    {
    }
    var path := "error-central/error-central";
    forall i | 0 <= i < |path|
      ensures path[i] != '\n' && path[i] != 'k'
    {
    }
    assert LaunchComment == launch + host + path;
    forall i | 0 <= i < |UninstallComment|
      ensures UninstallComment[i] != '\n' && UninstallComment[i] != 'k'
    {
    }
  }

  /** Four newlines around three newline-free lines. */
  lemma LemmaFourNewlines(a: string, b: string, l: string)
    requires '\n' !in a && '\n' !in b && '\n' !in l
    ensures CountChar("\n" + a + "\n" + b + "\n" + l + "\n", '\n') == 4
  {
    var nl := "\n";
    LemmaCountCharZero(a, '\n');
    LemmaCountCharZero(b, '\n');
    LemmaCountCharZero(l, '\n');
    LemmaCountCharAppend(nl, a, '\n');
    LemmaCountCharAppend(nl + a, nl, '\n');
    LemmaCountCharAppend(nl + a + nl, b, '\n');
    LemmaCountCharAppend(nl + a + nl + b, nl, '\n');
    LemmaCountCharAppend(nl + a + nl + b + nl, l, '\n');
    LemmaCountCharAppend(nl + a + nl + b + nl + l, nl, '\n');
  }

  /** A character that neither the template pieces nor the script name
      hold is not in the source line. */
  lemma LemmaSourceLineChars(script: string, shell: string, c: char)
    requires c == '\n' || c == 'k'
    requires c !in script
    ensures c !in SourceLineForShell(script, shell)
  {
    var p1, p2, p3 := "[ -f ", " ] && . ", " || true";
    var z1, z2 := "[[ -f ", " ]] && . ";
    var f2, f3 := " ]; and . ", "; or true";
    assert c !in p1 && c !in p2 && c !in p3 && c !in z1 && c !in z2 && c !in f2 && c !in f3;
    var line := SourceLineForShell(script, shell);
    if shell == "fish" {
      assert line == p1 + script + f2 + script + f3;
    } else if shell == "zsh" {
      assert line == z1 + script + z2 + script + p3;
    } else {
      assert line == p1 + script + p2 + script + p3;
    }
  }

  /** What `writeLineToFilename` appends: a newline, two comment lines, the
      source line, and a final newline. */
  function Block(script: string, shell: string): (b: string)
    ensures |b| > 0 && b[0] == '\n' && b[|b| - 1] == '\n'
    ensures Contains(b, script)
  {
    var line := SourceLineForShell(script, shell);
    LemmaContainsAppendLeft(line, "\n", script);
    LemmaContainsAppendRight(BlockHead, line + "\n", script);
    assert BlockHead + line + "\n" == BlockHead + (line + "\n");
    BlockHead + line + "\n"
  }

  /** Appended after a last line that has no newline of its own, the block
      adds exactly three lines: it holds four newlines when the script
      name holds none. */
  lemma LemmaBlockThreeLines(script: string, shell: string)
    requires '\n' !in script
    ensures CountChar(Block(script, shell), '\n') == 4
  {
    var line := SourceLineForShell(script, shell);
    LemmaCommentChars();
    LemmaSourceLineChars(script, shell, '\n');
    LemmaFourNewlines(LaunchComment, UninstallComment, line);
  }

  /** The block holds no `k` when the script name holds none. */
  lemma LemmaBlockNoK(script: string, shell: string)
    requires 'k' !in script
    ensures 'k' !in Block(script, shell)
  {
    LemmaCommentChars();
    LemmaSourceLineChars(script, shell, 'k');
  }

  /** A config file as the installer sees it. */
  datatype ConfigFile = Missing | Unreadable | Present(content: string)

  /** Why `install` or `removeLinesFromFilename` rejects: the two
      argument checks, a failed read, `mkdirp` failing to create the
      config's directory, or the write itself failing. */
  datatype InstallError = NameRequired | LocationRequired | ReadFailed | MkdirFailed | WriteFailed

  /** What the file system does with an append: whether `mkdirp` creates
      the config's directory, and whether the write stream then finishes
      without an `error` event. */
  datatype Disk = Disk(mkdirOk: bool, writeOk: bool)

  /** `checkFilenameForLine`: whether the file mentions `line` (a missing
      file reads as empty); `None` stands for the `undefined` returned
      after any other read error. */
  function CheckFilenameForLine(file: ConfigFile, line: string): (r: Option<bool>)
    ensures r.None? <==> file.Unreadable?
    ensures r == Some(true) <==> ((file.Present? && Contains(file.content, line))
                                  || (file.Missing? && line == ""))
  {
    assert Contains("", line) <==> line == "" by {
      if line == "" {
        assert LiteralAt("", 0, line);
      }
    }
    match file
    case Missing => Some(Contains("", line))
    case Unreadable => None
    case Present(content) => Some(Contains(content, line))
  }

  /** `writeToShellConfig`: the text appended to the file, or `None` when
      the script is already mentioned. An unreadable file is not known to
      mention it (`undefined` is falsy), so the block is appended. */
  function WriteToShellConfig(file: ConfigFile, script: string, shell: string): (appended: Option<string>)
    ensures appended.None? <==> CheckFilenameForLine(file, script) == Some(true)
    ensures appended.Some? ==> appended.value == Block(script, shell)
  {
    if CheckFilenameForLine(file, script) == Some(true) then None
    else Some(Block(script, shell))
  }

  /** Appending (the `a` flag of `createWriteStream`): a missing file is
      created. What an unreadable file holds stays unknown. */
  function AppendTo(file: ConfigFile, appended: Option<string>): ConfigFile {
    match appended
    case None => file
    case Some(text) =>
      match file
      case Missing => Present(text)
      case Unreadable => Unreadable
      case Present(content) => Present(content + text)
  }

  /** `install`: the name and the location must be non-empty, in that
      order; then the shell config gains the block unless it already
      mentions the script. Only an append touches the disk, and it
      rejects when `mkdirp` or the write stream fails. Afterwards a
      readable config always mentions the script. */
  function Install(name: string, location: string, file: ConfigFile, script: string, shell: string, disk: Disk): (r: Result<ConfigFile, InstallError>)
    ensures name == "" ==> r == Failure(NameRequired)
    ensures name != "" && location == "" ==> r == Failure(LocationRequired)
    ensures name != "" && location != "" && CheckFilenameForLine(file, script) == Some(true) ==> r == Success(file)
    ensures name != "" && location != "" && CheckFilenameForLine(file, script) != Some(true) ==>
              && (!disk.mkdirOk ==> r == Failure(MkdirFailed))
              && (disk.mkdirOk && !disk.writeOk ==> r == Failure(WriteFailed))
              && (disk.mkdirOk && disk.writeOk ==> r.Success?)
    ensures r.Success? && file.Present? && Contains(file.content, script) ==> r.value == file
    ensures r.Success? && file.Present? && !Contains(file.content, script) ==>
              r.value == Present(file.content + Block(script, shell))
    ensures r.Success? && file.Missing? && script != "" ==> r.value == Present(Block(script, shell))
    ensures r.Success? && !file.Unreadable? && script != "" ==> r.value.Present? && Contains(r.value.content, script)
  {
    if name == "" then Failure(NameRequired)
    else if location == "" then Failure(LocationRequired)
    else if CheckFilenameForLine(file, script) != Some(true) && !disk.mkdirOk then Failure(MkdirFailed)
    else if CheckFilenameForLine(file, script) != Some(true) && !disk.writeOk then Failure(WriteFailed)
    else
      var after := AppendTo(file, WriteToShellConfig(file, script, shell));
      assert after.Present? ==> Contains(after.content, script) by {
        if file.Present? && !Contains(file.content, script) {
          LemmaContainsAppendRight(file.content, Block(script, shell), script);
        }
      }
      Success(after)
  }

  /** Installing twice is installing once: the second install finds the
      script and writes nothing, so it succeeds whatever the disk does. */
  lemma LemmaInstallIdempotent(name: string, location: string, file: ConfigFile, script: string, shell: string,
                               disk: Disk, again: Disk)
    requires !file.Unreadable?
    requires Install(name, location, file, script, shell, disk).Success?
    ensures Install(name, location, Install(name, location, file, script, shell, disk).value, script, shell, again)
              == Install(name, location, file, script, shell, disk)
  {
    if script == "" && file.Present? {
      assert LiteralAt(file.content, 0, script);
    }
  }

  // ---- Removing ----

  /** The marker `removeLinesFromFilename` looks for. */
  function Marker(untildify: string -> string, filename: string, name: string): (m: string)
    ensures IsInShellConfig(untildify, filename) ==> m == "# tabtab source for packages"
    ensures !IsInShellConfig(untildify, filename) ==> m == "# tabtab source for " + name + " package"
    ensures |m| > 0 && 'k' in m
    ensures '\n' !in name ==> '\n' !in m
  {
    if IsInShellConfig(untildify, filename) then
      var m := "# tabtab source for packages";
      assert m[23] == 'k';
      m
    else
      var m := "# tabtab source for " + name + " package";
      assert m[|m| - 4] == 'k';
      m
  }

  /** The marker depends on the package name only outside the shell
      config files: in a shell config every package shares one marker,
      while in any other file two packages get different markers. */
  lemma LemmaShellConfigMarker(untildify: string -> string, filename: string, a: string, b: string)
    ensures IsInShellConfig(untildify, filename) ==> Marker(untildify, filename, a) == Marker(untildify, filename, b)
    ensures !IsInShellConfig(untildify, filename) && a != b ==> Marker(untildify, filename, a) != Marker(untildify, filename, b)
  {
    if !IsInShellConfig(untildify, filename) && Marker(untildify, filename, a) == Marker(untildify, filename, b) {
      var head := "# tabtab source for ";
      var ma := Marker(untildify, filename, a);
      assert |a| == |b|;
      assert ma[|head|..|head| + |a|] == a;
      assert Marker(untildify, filename, b)[|head|..|head| + |b|] == b;
    }
  }

  /** `line.match(sourceLine)`, taking the marker as plain text. */
  predicate Matches(line: string, marker: string) {
    Contains(line, marker)
  }

  /** A line without the one carriage return that `\r?` takes before the
      newline ending it. */
  function DropCr(line: string): (r: string)
    ensures line == r || line == r + "\r"
  {
    if |line| > 0 && line[|line| - 1] == '\r' then line[..|line| - 1] else line
  }

  /** The pieces between newlines, each but the last without the carriage
      return that ends it. */
  function DropCrs(pieces: seq<string>): (lines: seq<string>)
    requires |pieces| >= 1
    ensures |lines| == |pieces|
  {
    seq(|pieces|, i requires 0 <= i < |pieces| => if i < |pieces| - 1 then DropCr(pieces[i]) else pieces[i])
  }

  /** `s.split(/\r?\n/)`: split on newlines and drop one carriage return
      that precedes each newline. */
  function SplitLines(s: string): (lines: seq<string>)
    ensures |lines| == CountChar(s, '\n') + 1
    ensures forall i :: 0 <= i < |lines| ==> '\n' !in lines[i]
  {
    var pieces := Split(s, '\n');
    LemmaSplitPieces(s, '\n');
    LemmaSplitCount(s, '\n');
    DropCrs(pieces)
  }

  /** Every `\r\n` pair turned into `\n`; a lone carriage return stays. */
  function CrlfToLf(s: string): string {
    if |s| == 0 then ""
    else if |s| >= 2 && s[0] == '\r' && s[1] == '\n' then "\n" + CrlfToLf(s[2..])
    else [s[0]] + CrlfToLf(s[1..])
  }

  /** Text with no `\r\n` pair, because it lacks one of the two
      characters, comes through unchanged. */
  lemma {:induction false} LemmaCrlfIdentity(s: string)
    requires '\n' !in s || '\r' !in s
    ensures CrlfToLf(s) == s
  {
    if |s| > 0 {
      LemmaCrlfIdentity(s[1..]);
      assert s == [s[0]] + s[1..];
    }
  }

  /** A newline-free piece followed by a newline: the carriage return
      ending the piece, if any, goes with the newline. */
  lemma {:induction false} LemmaCrlfSeam(p: string, rest: string)
    requires '\n' !in p
    ensures CrlfToLf(p + "\n" + rest) == DropCr(p) + "\n" + CrlfToLf(rest)
  {
    var t := p + "\n" + rest;
    if |p| == 0 {
      assert t[0] == '\n' && t[1..] == rest;
    } else if p == "\r" {
      assert t[0] == '\r' && t[1] == '\n' && t[2..] == rest;
    } else {
      var tail := p[1..];
      var x := CrlfToLf(rest);
      assert t[1..] == tail + "\n" + rest;
      assert CrlfToLf(t) == [p[0]] + CrlfToLf(tail + "\n" + rest) by {
        assert t[0] == p[0];
        if |p| >= 2 {
          assert t[1] == p[1];
        }
      }
      LemmaCrlfSeam(tail, rest);
      LemmaDropCrCons(p);
      assert [p[0]] + (DropCr(tail) + "\n" + x) == ([p[0]] + DropCr(tail)) + "\n" + x;
    }
  }

  lemma LemmaDropCrCons(p: string)
    requires |p| >= 1 && p != "\r"
    ensures DropCr(p) == [p[0]] + DropCr(p[1..])
  {
    var tail := p[1..];
    if |p| == 1 {
      assert tail == "";
    } else if p[|p| - 1] == '\r' {
      assert p[..|p| - 1] == [p[0]] + tail[..|tail| - 1];
    } else {
      assert p == [p[0]] + tail;
    }
  }

  /** Joining newline-free pieces with newlines and then turning each
      `\r\n` into `\n` is joining the pieces without their carriage
      returns. */
  lemma {:induction false} LemmaCrlfJoin(pieces: seq<string>)
    requires |pieces| >= 1
    requires forall i :: 0 <= i < |pieces| ==> '\n' !in pieces[i]
    ensures CrlfToLf(Join(pieces, "\n")) == Join(DropCrs(pieces), "\n")
    decreases |pieces|
  {
    var lines := DropCrs(pieces);
    if |pieces| == 1 {
      LemmaCrlfIdentity(pieces[0]);
    } else {
      LemmaCrlfJoin(pieces[1..]);
      LemmaCrlfSeam(pieces[0], Join(pieces[1..], "\n"));
      assert lines[1..] == DropCrs(pieces[1..]);
    }
  }

  /** For any text, the lines joined by newlines give back the text with
      every `\r\n` turned into `\n`; without carriage returns that is the
      text itself. */
  lemma LemmaSplitLinesJoin(s: string)
    ensures Join(SplitLines(s), "\n") == CrlfToLf(s)
    ensures '\r' !in s ==> Join(SplitLines(s), "\n") == s
  {
    var pieces := Split(s, '\n');
    LemmaSplitPieces(s, '\n');
    LemmaJoinSplitIdentity(s, '\n');
    LemmaCrlfJoin(pieces);
    if '\r' !in s {
      LemmaCrlfIdentity(s);
    }
  }

  /** Line `i` lies on a marker line or one of the two lines after it. */
  predicate Blanked(lines: seq<string>, marker: string, i: int)
    requires 0 <= i < |lines|
  {
    || Matches(lines[i], marker)
    || (i >= 1 && Matches(lines[i - 1], marker))
    || (i >= 2 && Matches(lines[i - 2], marker))
  }

  /** The first `map` of `removeLinesFromFilename`, stated declaratively:
      each marker line and the two lines after it become empty, every
      other line stays where it was. */
  function Blank(lines: seq<string>, marker: string): (r: seq<string>)
    ensures |r| == |lines|
  {
    seq(|lines|, i requires 0 <= i < |lines| => if Blanked(lines, marker, i) then "" else lines[i])
  }

  /** Blanking only empties lines, and it empties every marker line. */
  lemma LemmaBlank(lines: seq<string>, marker: string)
    ensures forall i :: 0 <= i < |lines| ==> Blank(lines, marker)[i] == "" || Blank(lines, marker)[i] == lines[i]
    ensures forall i :: 0 <= i < |lines| && Matches(lines[i], marker) ==> Blank(lines, marker)[i] == ""
  {
  }

  /** The `lineIndex` of the loop after it has looked at `lines[..index]`:
      the last marker line among the three before `index`, or -1. */
  predicate LineIndexInv(lines: seq<string>, marker: string, index: int, lineIndex: int)
    requires 0 <= index <= |lines|
  {
    if lineIndex == -1 then
      forall j :: 0 <= j < index && index - 3 <= j ==> !Matches(lines[j], marker)
    else
      && index - 3 <= lineIndex < index && 0 <= lineIndex
      && Matches(lines[lineIndex], marker)
      && forall j :: lineIndex < j < index ==> !Matches(lines[j], marker)
  }

  /** The first `map` as the source writes it, with the running
      `lineIndex`: it computes `Blank`. */
  method BlankLines(lines: seq<string>, marker: string) returns (r: seq<string>)
    ensures r == Blank(lines, marker)
  {
    var lineIndex := -1;
    r := [];
    var index := 0;
    while index < |lines|
      invariant 0 <= index <= |lines|
      invariant r == Blank(lines, marker)[..index]
      invariant LineIndexInv(lines, marker, index, lineIndex)
    {
      var line := lines[index];
      if Matches(line, marker) {
        lineIndex := index;
      } else if lineIndex + 3 <= index {
        lineIndex := -1;
      }
      var out := if lineIndex == -1 then line else "";
      assert out == Blank(lines, marker)[index];
      r := r + [out];
      index := index + 1;
    }
  }

  /** No two neighbouring lines are both empty. */
  predicate NoDoubleEmpty(lines: seq<string>) {
    forall i :: 0 <= i < |lines| - 1 ==> lines[i] != "" || lines[i + 1] != ""
  }

  /** The second `map` and the `filter`: drop every empty line whose
      successor is empty too. */
  function Collapse(lines: seq<string>): (r: seq<string>)
    ensures |r| <= |lines|
    ensures |lines| > 0 ==> |r| > 0 && r[0] == lines[0]
  {
    if |lines| == 0 then []
    else if lines[0] == "" && |lines| > 1 && lines[1] == "" then Collapse(lines[1..])
    else [lines[0]] + Collapse(lines[1..])
  }

  /** The non-empty lines, in order. */
  function NonEmptyLines(lines: seq<string>): seq<string> {
    if |lines| == 0 then []
    else (if lines[0] == "" then [] else [lines[0]]) + NonEmptyLines(lines[1..])
  }

  /** Collapsing leaves no two neighbouring empty lines, keeps every
      non-empty line in order, and changes nothing exactly when there was
      nothing to collapse. */
  lemma {:induction false} LemmaCollapse(lines: seq<string>)
    ensures NoDoubleEmpty(Collapse(lines))
    ensures NonEmptyLines(Collapse(lines)) == NonEmptyLines(lines)
    ensures Collapse(lines) == lines <==> NoDoubleEmpty(lines)
  {
    if |lines| > 0 {
      var rest := lines[1..];
      LemmaCollapse(rest);
      if lines[0] == "" && |lines| > 1 && lines[1] == "" {
        assert !NoDoubleEmpty(lines);
        assert Collapse(lines) != lines;
      } else {
        var c := [lines[0]] + Collapse(rest);
        assert c[1..] == Collapse(rest);
        assert NonEmptyLines(c) == (if lines[0] == "" then [] else [lines[0]]) + NonEmptyLines(Collapse(rest));
        if NoDoubleEmpty(lines) {
          assert NoDoubleEmpty(rest);
        }
        if Collapse(lines) == lines {
          assert Collapse(rest) == rest;
        }
      }
    }
  }

  /** `k` empty lines. */
  function Empties(k: nat): seq<string>
    decreases k
  {
    if k == 0 then [] else [""] + Empties(k - 1)
  }

  /** Collapsing works line by line up to a non-empty line: what comes
      before it is collapsed on its own. */
  lemma {:induction false} LemmaCollapseSplit(a: seq<string>, rest: seq<string>)
    requires |a| == 0 || a[|a| - 1] != ""
    ensures Collapse(a + rest) == Collapse(a) + Collapse(rest)
    decreases |a|
  {
    if |a| == 0 {
      assert a + rest == rest;
    } else {
      var l := a + rest;
      assert l[0] == a[0] && l[1..] == a[1..] + rest;
      if |a| == 1 {
        assert a[1..] == [];
      } else {
        assert l[1] == a[1];
        LemmaCollapseSplit(a[1..], rest);
      }
    }
  }

  /** A run of one or more empty lines before a non-empty line, or before
      the end, becomes exactly one empty line. */
  lemma {:induction false} LemmaCollapseRun(k: nat, b: seq<string>)
    requires k >= 1
    requires |b| == 0 || b[0] != ""
    ensures Collapse(Empties(k) + b) == [""] + Collapse(b)
    decreases k
  {
    var l := Empties(k) + b;
    assert l[0] == "";
    if k == 1 {
      assert Empties(1) == [""];
      assert l[1..] == b;
    } else {
      assert Empties(k - 1) == [""] + Empties(k - 2);
      assert l[1] == "";
      assert l[1..] == Empties(k - 1) + b;
      LemmaCollapseRun(k - 1, b);
    }
  }

  /** Between two stretches bounded by non-empty lines, `k >= 1` empty
      lines collapse to one: the empty line that ends each run is kept. */
  lemma LemmaCollapseBetween(a: seq<string>, k: nat, b: seq<string>)
    requires |a| == 0 || a[|a| - 1] != ""
    requires k >= 1
    requires |b| == 0 || b[0] != ""
    ensures Collapse(a + Empties(k) + b) == Collapse(a) + [""] + Collapse(b)
  {
    var run := Empties(k) + b;
    LemmaConcatAssoc(a, Empties(k), b);
    LemmaCollapseSplit(a, run);
    LemmaCollapseRun(k, b);
    LemmaConcatAssoc(Collapse(a), [""], Collapse(b));
  }

  /** The new content of a file that holds the marker: blank, collapse,
      join with newlines, trim. */
  function Rewrite(content: string, marker: string): (r: string)
    ensures NoEdgeWhitespace(r)
  {
    Trim(Join(Collapse(Blank(SplitLines(content), marker)), "\n"))
  }

  /** Every line left after blanking is free of the marker, and so is
      every line left after collapsing. */
  lemma LemmaRewriteLines(content: string, marker: string)
    ensures var kept := Collapse(Blank(SplitLines(content), marker));
            && NoDoubleEmpty(kept)
            && (forall i :: 0 <= i < |kept| ==> '\n' !in kept[i])
            && (|marker| > 0 ==> forall i :: 0 <= i < |kept| ==> !Matches(kept[i], marker))
  {
    var lines := SplitLines(content);
    var blanked := Blank(lines, marker);
    forall i | 0 <= i < |blanked|
      ensures '\n' !in blanked[i]
      ensures |marker| > 0 ==> !Matches(blanked[i], marker)
    {
      if |marker| > 0 && blanked[i] == "" {
        assert !Contains("", marker);
      }
    }
    LemmaCollapse(blanked);
    LemmaCollapseKeeps(blanked, s => '\n' !in s && (|marker| > 0 ==> !Matches(s, marker)));
  }

  /** Collapsing only drops lines: a property of every line survives it. */
  lemma {:induction false} LemmaCollapseKeeps(lines: seq<string>, p: string -> bool)
    requires forall i :: 0 <= i < |lines| ==> p(lines[i])
    ensures forall i :: 0 <= i < |Collapse(lines)| ==> p(Collapse(lines)[i])
  {
    if |lines| > 0 {
      LemmaCollapseKeeps(lines[1..], p);
    }
  }

  /** `removeLinesFromFilename`: nothing happens to a missing file, a read
      error rejects, a file without the marker is left alone, and
      otherwise the marked lines are removed and the file is written
      back, which rejects when `writeFile` fails (`writeOk` false). The
      rewritten file has no edge whitespace and, for a marker without
      newlines, no marker left. */
  function RemoveLines(untildify: string -> string, filename: string, name: string, file: ConfigFile, writeOk: bool): (r: Result<ConfigFile, InstallError>)
    ensures file.Missing? ==> r == Success(Missing)
    ensures file.Unreadable? ==> r == Failure(ReadFailed)
    ensures file.Present? && !Contains(file.content, Marker(untildify, filename, name)) ==> r == Success(file)
    ensures file.Present? && Contains(file.content, Marker(untildify, filename, name)) && !writeOk ==>
              r == Failure(WriteFailed)
    ensures file.Present? && Contains(file.content, Marker(untildify, filename, name)) && writeOk ==>
              && r.Success? && r.value.Present?
              && NoEdgeWhitespace(r.value.content)
              && ('\n' !in name ==> !Contains(r.value.content, Marker(untildify, filename, name)))
  {
    match file
    case Missing => Success(Missing)
    case Unreadable => Failure(ReadFailed)
    case Present(content) =>
      var marker := Marker(untildify, filename, name);
      if !Contains(content, marker) then Success(file)
      else if !writeOk then Failure(WriteFailed)
      else
        var rewritten := Rewrite(content, marker);
        assert '\n' !in name ==> !Contains(rewritten, marker) by {
          if '\n' !in name {
            LemmaRewriteNoMarker(content, marker);
          }
        }
        Success(Present(rewritten))
  }

  lemma LemmaRewriteNoMarker(content: string, marker: string)
    requires |marker| > 0 && '\n' !in marker
    ensures !Contains(Rewrite(content, marker), marker)
  {
    var kept := Collapse(Blank(SplitLines(content), marker));
    LemmaRewriteLines(content, marker);
    LemmaJoinNotContains(kept, '\n', marker);
    var joined := Join(kept, "\n");
    if Contains(Trim(joined), marker) {
      LemmaContainsTransitive(joined, Trim(joined), marker);
      assert false;
    }
  }

  /** Uninstalling does not undo installing: the installed block never
      holds the marker removal looks for, so a config without the marker
      keeps the block. This holds whenever the script path has no `k`
      (both markers contain one, the block's fixed text does not) and
      the package name has no newline. */
  lemma LemmaRemoveKeepsInstall(untildify: string -> string, name: string, location: string,
                                file: ConfigFile, script: string, shell: string, disk: Disk, writeOk: bool)
    requires Install(name, location, file, script, shell, disk).Success?
    requires file.Missing? || (file.Present? && !Contains(file.content, Marker(untildify, location, name)))
    requires 'k' !in script && '\n' !in name
    ensures var installed := Install(name, location, file, script, shell, disk).value;
            RemoveLines(untildify, location, name, installed, writeOk) == Success(installed)
  {
    var marker := Marker(untildify, location, name);
    var block := Block(script, shell);
    var installed := Install(name, location, file, script, shell, disk).value;
    LemmaBlockNoK(script, shell);
    LemmaMissingCharNotContained(block, marker, 'k');
    if installed.Present? && Contains(installed.content, marker) {
      if file.Present? && installed.content == file.content + block {
        LemmaContainsAcrossSeam(file.content, block, marker);
      }
      assert false;
    }
  }
}

=== FILE: monitor.dfy ===
/** The blob handler of ec-monitor (`_handleBlob`): the only state it keeps
    is the blob counter, which numbers every blob that is not skipped.
    Reading the session logs (`readdir`, `tail`, the liveness check) is
    left out; each call receives one blob and the path it came from. */
module Monitor {
  import opened Wrappers
  import opened Classifier

  /** The monitor's mutable state: `_blobCounter`, starting at 0. */
  datatype Monitor = Monitor(blobCounter: nat)

  const Initial: Monitor := Monitor(0)

  /** The state after one blob, and the error the blob raised, if any (the
      current version emits it as `errorFound`, the legacy one posts it). */
  datatype Handled = Handled(next: Monitor, emitted: Option<FoundError>)

  /** One blob delivered by a tail: its text, its file, and the clock
      reading `new Date()` would return while it is handled. */
  datatype Blob = Blob(data: string, filePath: string, now: int)

  /** The record `_handleBlob` completes: session, blob id, and (current
      version only) the date. */
  function Stamp(v: Version, e: FoundError, filePath: string, id: nat, now: int): FoundError {
    e.(sessionId := Some(filePath), blobId := Some(id), date := if v == Current then Some(now) else e.date)
  }

  /** `_handleBlob`: a one-character blob is typing echo and changes
      nothing; any other blob takes the counter as its id, the counter
      moves on by one, and an error found in it is stamped with that id. */
  function HandleBlob(v: Version, m: Monitor, data: string, filePath: string, now: int): (h: Handled)
    ensures |data| == 1 ==> h == Handled(m, None)
    ensures |data| != 1 ==> h.next.blobCounter == m.blobCounter + 1
    ensures h.emitted.Some? ==>
              var e := h.emitted.value;
              && e.blobId == Some(m.blobCounter)
              && e.sessionId == Some(filePath)
              && e.rawText == data
              && e.date == (if v == Current then Some(now) else None)
  {
    if |data| == 1 then Handled(m, None)
    else
      var id := m.blobCounter;
      var found := ExtractError(v, data);
      var emitted := if found.Some? then Some(Stamp(v, found.value, filePath, id, now)) else None;
      Handled(Monitor(id + 1), emitted)
  }

  /** A blob raises an error exactly when it is numbered and `extractError`
      finds one, and the raised error is the one found, stamped. */
  lemma LemmaHandleBlobError(v: Version, m: Monitor, data: string, filePath: string, now: int)
    ensures var h := HandleBlob(v, m, data, filePath, now);
            && (h.emitted.Some? <==> |data| != 1 && ExtractError(v, data).Some?)
            && (h.emitted.Some? ==>
                  && h.emitted.value.language == ExtractError(v, data).value.language
                  && h.emitted.value.title == ExtractError(v, data).value.title
                  && h.emitted.value.googleQs == ExtractError(v, data).value.googleQs)
  {
  }

  /** A whole sequence of blobs handled in order: the final state and the
      errors raised, in the order they were raised. */
  datatype Session = Session(monitor: Monitor, errors: seq<FoundError>)

  /** The counter never goes back and moves at most one step per blob,
      and each blob raises at most one error. */
  function HandleAll(v: Version, m: Monitor, blobs: seq<Blob>): (r: Session)
    ensures m.blobCounter <= r.monitor.blobCounter <= m.blobCounter + |blobs|
    ensures |r.errors| <= |blobs|
    decreases |blobs|
  {
    if |blobs| == 0 then Session(m, [])
    else
      var before := HandleAll(v, m, blobs[..|blobs| - 1]);
      var b := blobs[|blobs| - 1];
      var h := HandleBlob(v, before.monitor, b.data, b.filePath, b.now);
      Session(h.next, before.errors + Raised(h))
  }

  /** Number of blobs that are not a single character. */
  function CountNumbered(blobs: seq<Blob>): (n: nat)
    ensures n <= |blobs|
    decreases |blobs|
  {
    if |blobs| == 0 then 0
    else CountNumbered(blobs[..|blobs| - 1]) + (if |blobs[|blobs| - 1].data| == 1 then 0 else 1)
  }

  /** Every raised error carries an id, the ids strictly increase in the
      order the errors are raised, and they lie between the initial and
      the final counter. */
  predicate IdsIncreasing(errors: seq<FoundError>, lo: nat, hi: nat) {
    && (forall i :: 0 <= i < |errors| ==> errors[i].blobId.Some? && lo <= errors[i].blobId.value < hi)
    && (forall i, j :: 0 <= i < j < |errors| ==> errors[i].blobId.value < errors[j].blobId.value)
  }

  /** The errors one handled blob adds to the session. */
  function Raised(h: Handled): seq<FoundError> {
    if h.emitted.Some? then [h.emitted.value] else []
  }

  /** One more blob keeps the ids increasing, up to the new counter. */
  lemma LemmaIdsStep(v: Version, mon: Monitor, errors: seq<FoundError>, b: Blob, lo: nat)
    requires IdsIncreasing(errors, lo, mon.blobCounter) && lo <= mon.blobCounter
    ensures var h := HandleBlob(v, mon, b.data, b.filePath, b.now);
            IdsIncreasing(errors + Raised(h), lo, h.next.blobCounter)
  {
    var h := HandleBlob(v, mon, b.data, b.filePath, b.now);
    var all := errors + Raised(h);
    if |b.data| == 1 {
      assert all == errors;
    } else {
      assert forall i :: 0 <= i < |all| ==> all[i] == if i < |errors| then errors[i] else h.emitted.value;
    }
  }

  /** Over any sequence of blobs, the counter ends at its start plus the
      number of blobs longer or shorter than one character, and no more
      errors are raised than blobs numbered. */
  lemma {:induction false} LemmaHandleAllCounter(v: Version, m: Monitor, blobs: seq<Blob>)
    ensures HandleAll(v, m, blobs).monitor.blobCounter == m.blobCounter + CountNumbered(blobs)
    ensures |HandleAll(v, m, blobs).errors| <= CountNumbered(blobs)
    decreases |blobs|
  {
    if |blobs| > 0 {
      LemmaHandleAllCounter(v, m, blobs[..|blobs| - 1]);
    }
  }

  /** The raised errors have strictly increasing ids drawn from the range
      the counter swept. */
  lemma {:induction false} LemmaHandleAll(v: Version, m: Monitor, blobs: seq<Blob>)
    ensures HandleAll(v, m, blobs).monitor.blobCounter == m.blobCounter + CountNumbered(blobs)
    ensures IdsIncreasing(HandleAll(v, m, blobs).errors, m.blobCounter, m.blobCounter + CountNumbered(blobs))
    decreases |blobs|
  {
    LemmaHandleAllCounter(v, m, blobs);
    if |blobs| > 0 {
      var init := blobs[..|blobs| - 1];
      LemmaHandleAll(v, m, init);
      LemmaHandleAllCounter(v, m, init);
      var before := HandleAll(v, m, init);
      var b := blobs[|blobs| - 1];
      LemmaIdsStep(v, before.monitor, before.errors, b, m.blobCounter);
    }
  }

  /** Skipped blobs are invisible: inserting a one-character blob anywhere
      changes neither the final counter nor the errors raised. */
  lemma {:induction false} LemmaSkipInvisible(v: Version, m: Monitor, pre: seq<Blob>, typed: Blob, post: seq<Blob>)
    requires |typed.data| == 1
    ensures HandleAll(v, m, pre + [typed] + post) == HandleAll(v, m, pre + post)
    decreases |post|
  {
    if |post| == 0 {
      assert (pre + [typed] + post)[..|pre + [typed] + post| - 1] == pre;
      assert pre + post == pre;
    } else {
      var init := post[..|post| - 1];
      LemmaSkipInvisible(v, m, pre, typed, init);
      assert (pre + [typed] + post)[..|pre + [typed] + post| - 1] == pre + [typed] + init;
      assert (pre + post)[..|pre + post| - 1] == pre + init;
    }
  }
}

=== FILE: patterns.dfy ===
/** The regular expressions of the error detectors, each written out as the
    set of strings for which `regex.test(data)` succeeds, together with a
    linear scanner per pattern that decides it.

    Every detector builds its regex from a literal inside the function body,
    so each `test` call starts with `lastIndex` 0 and the `g` flag has no
    effect. With the `s` flag `.` matches any character, so a leading or
    trailing `.*` only says "anything may come before/after"; with the `m`
    flag `^` matches at index 0 and after every line terminator. */
module Patterns {
  import opened Text

  /** The character class `[a-zA-Z0-9]`. */
  predicate IsAlnum(c: char) {
    ('a' <= c <= 'z') || ('A' <= c <= 'Z') || ('0' <= c <= '9')
  }

  /** `^` under the `m` flag matches at index `p`. */
  predicate LineStart(s: string, p: int) {
    0 <= p <= |s| && (p == 0 || IsLineTerminator(s[p - 1]))
  }

  // `/^lit */gms`: `lit` begins some line (the trailing ` *` also matches
  // zero spaces, so it adds no condition).
  predicate AtSomeLineStart(s: string, lit: string) {
    exists p :: 0 <= p <= |s| && LineStart(s, p) && LiteralAt(s, p, lit)
  }

  /** A newline at `j` followed by alphanumerics up to (not including) `p`. */
  predicate WordRun(s: string, j: int, p: int) {
    0 <= j < p <= |s| && s[j] == '\n' && forall t :: j < t < p ==> IsAlnum(s[t])
  }

  /** `\n[a-zA-Z0-9]*:` with the newline at `j` and the colon at `k`. */
  predicate NewlineWordColon(s: string, j: int, k: int) {
    0 <= j < k < |s| && WordRun(s, j, k) && s[k] == ':'
  }

  /** `.*\n[a-zA-Z0-9]*:.*` under the `s` flag, matched from index `from`:
      the shared tail of the Node and Python patterns. */
  predicate TailFrom(s: string, from: int) {
    exists j, k :: 0 <= j < k < |s| && from <= j && NewlineWordColon(s, j, k)
  }

  // `/Thrown:.*\n[a-zA-Z0-9]*:.*/gms` (the Node pattern).
  predicate NodePattern(s: string) {
    exists i :: 0 <= i <= |s| && LiteralAt(s, i, "Thrown:") && TailFrom(s, i + 7)
  }

  /** `File "[^"]*",` with `File "` at `i` and the closing `",` at `q`:
      `[^"]*` stops at the first quote, so `q` is the first quote from `i + 6`. */
  predicate PythonHead(s: string, i: int, q: int) {
    && 0 <= i && i + 6 <= q
    && LiteralAt(s, i, "File \"")
    && LiteralAt(s, q, "\",")
    && forall t :: i + 6 <= t < q ==> s[t] != '"'
  }

  // `/File "[^"]*",.*\n[a-zA-Z0-9]*:.*/gms` (the Python pattern).
  predicate PythonPattern(s: string) {
    exists i, q :: 0 <= i < |s| && i <= q < |s| && PythonHead(s, i, q) && TailFrom(s, q + 2)
  }

  // `/^-?bash: */gms` when `dashAllowed`, `/^bash: */gms` otherwise.
  predicate BashPattern(dashAllowed: bool, s: string) {
    AtSomeLineStart(s, "bash:") || (dashAllowed && AtSomeLineStart(s, "-bash:"))
  }

  // `/^remote: */gms` (the Git pattern).
  predicate GitPattern(s: string) {
    AtSomeLineStart(s, "remote:")
  }

  // `/^npm ERR!*/gms` (the npm pattern; `!*` also matches nothing).
  predicate NpmPattern(s: string) {
    AtSomeLineStart(s, "npm ERR")
  }

  // ---- Scanners ----

  /** Decides `AtSomeLineStart` in one left-to-right pass, tracking whether
      the current index begins a line. */
  method ScanLineStarts(s: string, lit: string) returns (b: bool)
    ensures b <==> AtSomeLineStart(s, lit)
  {
    var p := 0;
    var atStart := true;
    while p < |s|
      invariant 0 <= p <= |s|
      invariant atStart <==> LineStart(s, p)
      invariant forall p' :: 0 <= p' < p && LineStart(s, p') ==> !LiteralAt(s, p', lit)
    {
      if atStart && LiteralAt(s, p, lit) {
        return true;
      }
      atStart := IsLineTerminator(s[p]);
      p := p + 1;
    }
    b := atStart && LiteralAt(s, p, lit);
  }

  /** A tail found from a later index is also found from an earlier one. */
  lemma LemmaTailMonotone(s: string, a: int, b: int)
    ensures a <= b && TailFrom(s, b) ==> TailFrom(s, a)
  {
  }

  /** Extending a run by one character: either the newline itself starts
      it, or the run reaches `p` and `s[p]` is alphanumeric. */
  lemma LemmaWordRunStep(s: string, j: int, p: int)
    ensures 0 <= j <= p < |s| && WordRun(s, j, p + 1) ==>
      (j == p && s[p] == '\n') || (j < p && WordRun(s, j, p) && IsAlnum(s[p]))
  {
  }

  /** Decides `TailFrom(s, from)` in one pass: `inRun` records that the
      characters since the newline at `runStart` are all alphanumeric. */
  method ScanTail(s: string, from: int) returns (b: bool)
    requires 0 <= from <= |s|
    ensures b <==> TailFrom(s, from)
  {
    var p := from;
    var inRun := false;
    var runStart := from;
    while p < |s|
      invariant from <= p <= |s|
      invariant inRun ==> from <= runStart < p && WordRun(s, runStart, p)
      invariant !inRun ==> forall j :: from <= j < p ==> !WordRun(s, j, p)
      invariant forall j, k :: from <= j < k < p ==> !NewlineWordColon(s, j, k)
    {
      if s[p] == ':' && inRun {
        assert NewlineWordColon(s, runStart, p);
        return true;
      }
      var next := p + 1;
      forall j | from <= j <= p
        ensures WordRun(s, j, next) ==> (j == p && s[p] == '\n') || (j < p && WordRun(s, j, p) && IsAlnum(s[p]))
      {
        LemmaWordRunStep(s, j, p);
      }
      if s[p] == '\n' {
        inRun, runStart := true, p;
      } else if !IsAlnum(s[p]) {
        inRun := false;
      }
      p := next;
    }
    b := false;
  }

  /** Decides the Node pattern: only the first `Thrown:` matters, because
      a tail after a later one is also after the first. */
  method ScanNode(s: string) returns (b: bool)
    ensures b <==> NodePattern(s)
  {
    var i := 0;
    while i < |s|
      invariant 0 <= i <= |s|
      invariant forall i' :: 0 <= i' < i ==> !LiteralAt(s, i', "Thrown:")
    {
      if LiteralAt(s, i, "Thrown:") {
        b := ScanTail(s, i + 7);
        forall i' | 0 <= i' <= |s| && LiteralAt(s, i', "Thrown:")
          ensures TailFrom(s, i' + 7) ==> b
        {
          LemmaTailMonotone(s, i + 7, i' + 7);
        }
        return;
      }
      i := i + 1;
    }
    b := false;
  }

  /** First double quote at or after `from`, or `|s|` when there is none. */
  function NextQuote(s: string, from: int): (q: int)
    requires 0 <= from <= |s|
    ensures from <= q <= |s|
    ensures q < |s| ==> s[q] == '"'
    ensures forall t :: from <= t < q ==> s[t] != '"'
    decreases |s| - from
  {
    if from == |s| || s[from] == '"' then from else NextQuote(s, from + 1)
  }

  lemma LemmaLiteralAtFirst(s: string, i: int, lit: string)
    ensures LiteralAt(s, i, lit) && |lit| > 0 ==> s[i] == lit[0]
  {
    LemmaLiteralAtIndex(s, i, lit, 0);
  }

  /** Two Python heads: the one that starts later cannot close earlier. */
  lemma LemmaPythonHeadOrder(s: string, i: int, q: int, i2: int, q2: int)
    ensures PythonHead(s, i, q) && PythonHead(s, i2, q2) && i <= i2 ==> q <= q2
  {
    LemmaLiteralAtFirst(s, q2, "\",");
  }

  /** Decides the Python pattern: the first `File "` whose quoted part is
      closed by `",` decides, since later heads close no earlier. */
  method ScanPython(s: string) returns (b: bool)
    ensures b <==> PythonPattern(s)
  {
    var i := 0;
    while i < |s|
      invariant 0 <= i <= |s|
      invariant forall i', q :: 0 <= i' < i ==> !PythonHead(s, i', q)
    {
      if LiteralAt(s, i, "File \"") {
        var q := NextQuote(s, i + 6);
        if q < |s| && LiteralAt(s, q, "\",") {
          b := ScanTail(s, q + 2);
          assert PythonHead(s, i, q);
          forall i', q' | 0 <= i' < |s| && i' <= q' < |s| && PythonHead(s, i', q')
            ensures TailFrom(s, q' + 2) ==> b
          {
            LemmaPythonHeadOrder(s, i, q, i', q');
            LemmaTailMonotone(s, q + 2, q' + 2);
          }
          return;
        }
        forall q' | true
          ensures !PythonHead(s, i, q')
        {
          LemmaLiteralAtFirst(s, q', "\",");
        }
      }
      i := i + 1;
    }
    b := false;
  }
}

=== FILE: text.dfy ===
/** String helpers with the semantics of the JavaScript and Python string
    methods the system uses: `trim`, `split`/`join` on one character,
    single-character `replace`, substring search. */
module Text {

  /** The JavaScript line terminators (ECMAScript section 12.3): these end a
      line for `^` in multiline mode and are not matched by `.` without the
      `s` flag. */
  predicate IsLineTerminator(c: char) {
    c == '\n' || c == '\r' || c == '\U{2028}' || c == '\U{2029}'
  }

  /** The characters JavaScript's `String.prototype.trim` removes: the
      WhiteSpace production (TAB, VT, FF, ZWNBSP and the space separators)
      together with the line terminators. */
  predicate IsJsWhitespace(c: char) {
    || c == '\t' || c == '\U{000B}' || c == '\U{000C}' || c == ' '
    || c == '\U{00A0}' || c == '\U{FEFF}' || c == '\U{1680}'
    || ('\U{2000}' <= c <= '\U{200A}')
    || c == '\U{202F}' || c == '\U{205F}' || c == '\U{3000}'
    || IsLineTerminator(c)
  }

  /** `lit` occurs in `s` starting at index `i`. */
  predicate LiteralAt(s: string, i: int, lit: string) {
    0 <= i && i + |lit| <= |s| && s[i..i + |lit|] == lit
  }

  /** `sub` occurs somewhere in `s`. */
  predicate Contains(s: string, sub: string) {
    exists i :: 0 <= i <= |s| && LiteralAt(s, i, sub)
  }

  lemma LemmaContainsAppendLeft(a: string, b: string, sub: string)
    requires Contains(a, sub)
    ensures Contains(a + b, sub)
  {
    var i :| 0 <= i <= |a| && LiteralAt(a, i, sub);
    assert (a + b)[i..i + |sub|] == a[i..i + |sub|];
    assert LiteralAt(a + b, i, sub);
  }

  lemma LemmaContainsAppendRight(a: string, b: string, sub: string)
    requires Contains(b, sub)
    ensures Contains(a + b, sub)
  {
    var i :| 0 <= i <= |b| && LiteralAt(b, i, sub);
    assert (a + b)[|a| + i..|a| + i + |sub|] == b[i..i + |sub|];
    assert LiteralAt(a + b, |a| + i, sub);
  }

  /** An occurrence in `a + b` that cannot straddle the seam, because `b`
      starts with a character `sub` does not contain, lies in `a` or in `b`. */
  lemma LemmaContainsAcrossSeam(a: string, b: string, sub: string)
    requires |b| > 0 && b[0] !in sub
    requires Contains(a + b, sub)
    ensures Contains(a, sub) || Contains(b, sub)
  {
    var i :| 0 <= i <= |a + b| && LiteralAt(a + b, i, sub);
    if i + |sub| <= |a| {
      assert a[i..i + |sub|] == (a + b)[i..i + |sub|];
      assert LiteralAt(a, i, sub);
    } else if i >= |a| {
      assert b[i - |a|..i - |a| + |sub|] == (a + b)[i..i + |sub|];
      assert LiteralAt(b, i - |a|, sub);
    } else {
      LemmaLiteralAtIndex(a + b, i, sub, |a| - i);
      assert false;
    }
  }

  /** An occurrence in `[c] + s` of a string without `c` lies in `s`. */
  lemma LemmaContainsDropHead(c: char, s: string, sub: string)
    requires c !in sub
    requires Contains([c] + s, sub)
    ensures Contains(s, sub)
  {
    var i :| 0 <= i <= |[c] + s| && LiteralAt([c] + s, i, sub);
    if |sub| == 0 {
      assert LiteralAt(s, 0, sub);
    } else if i == 0 {
      LemmaLiteralAtIndex([c] + s, 0, sub, 0);
      assert false;
    } else {
      assert s[i - 1..i - 1 + |sub|] == ([c] + s)[i..i + |sub|];
      assert LiteralAt(s, i - 1, sub);
    }
  }

  /** Containment is transitive. */
  lemma LemmaContainsTransitive(a: string, b: string, sub: string)
    requires Contains(a, b) && Contains(b, sub)
    ensures Contains(a, sub)
  {
    var i :| 0 <= i <= |a| && LiteralAt(a, i, b);
    var j :| 0 <= j <= |b| && LiteralAt(b, j, sub);
    forall m | 0 <= m < |b|
      ensures a[i + m] == b[m]
    {
      assert a[i..i + |b|][m] == a[i + m];
    }
    assert a[i + j..i + j + |sub|] == b[j..j + |sub|];
    assert LiteralAt(a, i + j, sub);
  }

  /** Joining with a separator character that `sub` lacks creates no
      occurrence of `sub` that no piece had. */
  lemma {:induction false} LemmaJoinNotContains(parts: seq<string>, c: char, sub: string)
    requires c !in sub
    requires forall i :: 0 <= i < |parts| ==> !Contains(parts[i], sub)
    ensures |parts| > 0 || |sub| > 0 ==> !Contains(Join(parts, [c]), sub)
  {
    if |parts| > 1 {
      LemmaJoinNotContains(parts[1..], c, sub);
      var rest := Join(parts[1..], [c]);
      assert Join(parts, [c]) == parts[0] + ([c] + rest);
      if Contains(parts[0] + ([c] + rest), sub) {
        LemmaContainsAcrossSeam(parts[0], [c] + rest, sub);
        LemmaContainsDropHead(c, rest, sub);
        assert false;
      }
    } else if |parts| == 0 && |sub| > 0 {
      assert !Contains("", sub);
    }
  }

  /** Character `j` of an occurrence of `lit` at `i` is `lit[j]`. */
  lemma LemmaLiteralAtIndex(s: string, i: int, lit: string, j: int)
    ensures LiteralAt(s, i, lit) && 0 <= j < |lit| ==> s[i + j] == lit[j]
  {
    if LiteralAt(s, i, lit) && 0 <= j < |lit| {
      assert s[i..i + |lit|][j] == s[i + j];
    }
  }

  /** A string lacking one of the characters of `sub` does not contain it. */
  lemma LemmaMissingCharNotContained(s: string, sub: string, c: char)
    requires c in sub && c !in s
    ensures !Contains(s, sub)
  {
  }

  /** Removes leading whitespace, as the first half of JavaScript `trim`. */
  function TrimStart(s: string): (r: string)
    ensures |r| <= |s| && r == s[|s| - |r|..]
    ensures forall i :: 0 <= i < |s| - |r| ==> IsJsWhitespace(s[i])
    ensures |r| == 0 || !IsJsWhitespace(r[0])
  {
    if |s| > 0 && IsJsWhitespace(s[0]) then
      var r := TrimStart(s[1..]);
      assert s[1..][|s| - 1 - |r|..] == s[|s| - |r|..];
      r
    else s
  }

  /** Removes trailing whitespace, as the second half of JavaScript `trim`. */
  function TrimEnd(s: string): (r: string)
    ensures |r| <= |s| && r == s[..|r|]
    ensures forall i :: |r| <= i < |s| ==> IsJsWhitespace(s[i])
    ensures |r| == 0 || !IsJsWhitespace(r[|r| - 1])
  {
    if |s| > 0 && IsJsWhitespace(s[|s| - 1]) then
      var r := TrimEnd(s[..|s| - 1]);
      assert s[..|s| - 1][..|r|] == s[..|r|];
      r
    else s
  }

  /** Neither end of `s` is whitespace. */
  predicate NoEdgeWhitespace(s: string) {
    |s| == 0 || (!IsJsWhitespace(s[0]) && !IsJsWhitespace(s[|s| - 1]))
  }

  /** `r` occurs in `s` at offset `a`, and everything of `s` before and
      after that occurrence is whitespace. */
  predicate WhitespaceAround(s: string, a: int, r: string) {
    && 0 <= a && a + |r| <= |s| && s[a..a + |r|] == r
    && (forall i :: 0 <= i < a ==> IsJsWhitespace(s[i]))
    && (forall i :: a + |r| <= i < |s| ==> IsJsWhitespace(s[i]))
  }

  /** Cutting a whitespace prefix from `s` to get `t`, and then a
      whitespace suffix from `t` to get `r`, leaves an occurrence of `r`
      with only whitespace around it. */
  lemma LemmaTrimAround(s: string, t: string, r: string)
    requires |t| <= |s| && t == s[|s| - |t|..]
    requires forall i :: 0 <= i < |s| - |t| ==> IsJsWhitespace(s[i])
    requires |r| <= |t| && r == t[..|r|]
    requires forall i :: |r| <= i < |t| ==> IsJsWhitespace(t[i])
    ensures WhitespaceAround(s, |s| - |t|, r)
  {
    var a := |s| - |t|;
    assert s[a..a + |r|] == r by {
      assert s[a..][..|r|] == s[a..a + |r|];
    }
    forall i | a + |r| <= i < |s|
      ensures IsJsWhitespace(s[i])
    {
      assert s[i] == t[i - a];
    }
  }

  /** JavaScript `String.prototype.trim`: only whitespace is cut, from the
      two ends, and none is left at either end. */
  function Trim(s: string): (r: string)
    ensures NoEdgeWhitespace(r)
    ensures exists a :: WhitespaceAround(s, a, r)
    ensures Contains(s, r)
    ensures NoEdgeWhitespace(s) ==> r == s
  {
    var t := TrimStart(s);
    var r := TrimEnd(t);
    assert WhitespaceAround(s, |s| - |t|, r) by {
      LemmaTrimAround(s, t, r);
    }
    assert LiteralAt(s, |s| - |t|, r);
    assert NoEdgeWhitespace(s) ==> r == s by {
      if NoEdgeWhitespace(s) && |s| > 0 {
        assert t == s;
        assert r == t;
      }
    }
    r
  }

  /** Number of occurrences of `c` in `s`. */
  function CountChar(s: string, c: char): nat {
    if |s| == 0 then 0 else (if s[0] == c then 1 else 0) + CountChar(s[1..], c)
  }

  /** Every occurrence of the character `c` replaced by `rep`: Python's
      `str.replace` with a one-character pattern. */
  function ReplaceChar(s: string, c: char, rep: string): string {
    if |s| == 0 then ""
    else (if s[0] == c then rep else [s[0]]) + ReplaceChar(s[1..], c, rep)
  }

  /** Each replaced character contributes `|rep|` characters instead of one. */
  lemma {:induction false} LemmaReplaceCharLength(s: string, c: char, rep: string)
    ensures |ReplaceChar(s, c, rep)| == |s| - CountChar(s, c) + |rep| * CountChar(s, c)
  {
    if |s| > 0 {
      LemmaReplaceCharLength(s[1..], c, rep);
    }
  }

  lemma {:induction false} LemmaReplaceCharAppend(a: string, b: string, c: char, rep: string)
    ensures ReplaceChar(a + b, c, rep) == ReplaceChar(a, c, rep) + ReplaceChar(b, c, rep)
  {
    if |a| == 0 {
      assert a + b == b;
    } else {
      assert (a + b)[1..] == a[1..] + b;
      LemmaReplaceCharAppend(a[1..], b, c, rep);
    }
  }

  /** A character of the result comes from `rep`, or is a character of
      `s` other than `c`. */
  lemma {:induction false} LemmaReplaceCharChars(s: string, c: char, rep: string, x: char)
    requires x in ReplaceChar(s, c, rep)
    ensures x in rep || (x in s && x != c)
  {
    if |s| > 0 {
      var head := if s[0] == c then rep else [s[0]];
      if x !in head {
        LemmaReplaceCharChars(s[1..], c, rep, x);
      }
    }
  }

  lemma {:induction false} LemmaReplaceCharAbsent(s: string, c: char, rep: string)
    requires c !in s
    ensures ReplaceChar(s, c, rep) == s
  {
    if |s| > 0 {
      assert c !in s[1..];
      LemmaReplaceCharAbsent(s[1..], c, rep);
    }
  }

  /** JavaScript `s.split(c)` for a one-character separator: the pieces
      between consecutive occurrences of `c`, always at least one. */
  function Split(s: string, c: char): (parts: seq<string>)
    ensures |parts| >= 1
  {
    if |s| == 0 then [""]
    else
      var tail := Split(s[1..], c);
      if s[0] == c then [""] + tail
      else [[s[0]] + tail[0]] + tail[1..]
  }

  /** No piece holds the separator, and every character of a piece is a
      character of `s`. */
  lemma {:induction false} LemmaSplitPieces(s: string, c: char)
    ensures forall i :: 0 <= i < |Split(s, c)| ==> c !in Split(s, c)[i]
    ensures forall i, x :: 0 <= i < |Split(s, c)| && x in Split(s, c)[i] ==> x in s
  {
    if |s| > 0 {
      LemmaSplitPieces(s[1..], c);
      var tail := Split(s[1..], c);
      var parts := Split(s, c);
      forall i, x | 0 <= i < |parts| && x in parts[i]
        ensures x in s && x != c
      {
        if s[0] == c {
          assert parts[i] == tail[i - 1];
          assert x in s[1..];
        } else if i == 0 {
          assert parts[0] == [s[0]] + tail[0];
          if x != s[0] {
            assert x in tail[0];
            assert x in s[1..];
          }
        } else {
          assert parts[i] == tail[i];
          assert x in s[1..];
        }
      }
    }
  }

  lemma {:induction false} LemmaCountCharAppend(a: string, b: string, c: char)
    ensures CountChar(a + b, c) == CountChar(a, c) + CountChar(b, c)
  {
    if |a| == 0 {
      assert a + b == b;
    } else {
      assert (a + b)[1..] == a[1..] + b;
      LemmaCountCharAppend(a[1..], b, c);
    }
  }

  /** JavaScript `parts.join(sep)`. */
  function Join(parts: seq<string>, sep: string): string {
    if |parts| == 0 then ""
    else if |parts| == 1 then parts[0]
    else parts[0] + sep + Join(parts[1..], sep)
  }

  /** Concatenation of all pieces, in order. */
  function Flatten(parts: seq<string>): string {
    if |parts| == 0 then "" else parts[0] + Flatten(parts[1..])
  }

  lemma {:induction false} LemmaFlattenAppend(a: seq<string>, b: seq<string>)
    ensures Flatten(a + b) == Flatten(a) + Flatten(b)
  {
    if |a| == 0 {
      assert a + b == b;
    } else {
      assert (a + b)[1..] == a[1..] + b;
      LemmaFlattenAppend(a[1..], b);
    }
  }

  /** Splitting on `c` and joining with `sep` replaces every `c` by `sep`;
      with `sep == [c]` it gives back the original string. */
  lemma {:induction false} LemmaJoinSplit(s: string, c: char, sep: string)
    ensures Join(Split(s, c), sep) == ReplaceChar(s, c, sep)
  {
    if |s| > 0 {
      var tail := Split(s[1..], c);
      LemmaJoinSplit(s[1..], c, sep);
      if s[0] == c {
        assert Split(s, c) == [""] + tail;
        assert ([""] + tail)[1..] == tail;
      } else {
        var parts := [[s[0]] + tail[0]] + tail[1..];
        assert Split(s, c) == parts;
        if |tail| == 1 {
          assert Join(tail, sep) == tail[0];
        } else {
          assert parts[1..] == tail[1..];
          assert Join(tail, sep) == tail[0] + sep + Join(tail[1..], sep);
        }
      }
    }
  }

  lemma LemmaJoinSplitIdentity(s: string, c: char)
    ensures Join(Split(s, c), [c]) == s
  {
    LemmaJoinSplit(s, c, [c]);
    LemmaReplaceCharSelf(s, c);
  }

  lemma {:induction false} LemmaReplaceCharSelf(s: string, c: char)
    ensures ReplaceChar(s, c, [c]) == s
  {
    if |s| > 0 {
      LemmaReplaceCharSelf(s[1..], c);
      assert s == [s[0]] + s[1..];
    }
  }

  /** `t` is the text of `s` before the first `c` (all of `s` when there is none). */
  predicate IsFirstPiece(t: string, s: string, c: char) {
    |t| <= |s| && t == s[..|t|] && c !in t && (|t| == |s| || s[|t|] == c)
  }

  /** `t` is the text of `s` after the last `c` (all of `s` when there is none). */
  predicate IsLastPiece(t: string, s: string, c: char) {
    |t| <= |s| && t == s[|s| - |t|..] && c !in t && (|t| == |s| || s[|s| - |t| - 1] == c)
  }

  lemma {:induction false} LemmaSplitFirstPiece(s: string, c: char)
    ensures IsFirstPiece(Split(s, c)[0], s, c)
  {
    if |s| > 0 && s[0] != c {
      LemmaSplitFirstPiece(s[1..], c);
      var t := Split(s[1..], c)[0];
      assert Split(s, c)[0] == [s[0]] + t;
      assert s[..|t| + 1] == [s[0]] + s[1..][..|t|];
    }
  }

  /** One more piece than there are separators. */
  lemma {:induction false} LemmaSplitCount(s: string, c: char)
    ensures |Split(s, c)| == CountChar(s, c) + 1
  {
    if |s| > 0 {
      LemmaSplitCount(s[1..], c);
    }
  }

  lemma {:induction false} LemmaCountCharZero(s: string, c: char)
    ensures CountChar(s, c) == 0 <==> c !in s
  {
    if |s| > 0 {
      LemmaCountCharZero(s[1..], c);
      assert s == [s[0]] + s[1..];
    }
  }

  lemma {:induction false} LemmaSplitLastPiece(s: string, c: char)
    ensures IsLastPiece(Split(s, c)[|Split(s, c)| - 1], s, c)
  {
    if |s| > 0 {
      LemmaSplitLastPiece(s[1..], c);
      var tail := Split(s[1..], c);
      var t := tail[|tail| - 1];
      if s[0] != c && |tail| == 1 {
        LemmaSplitCount(s[1..], c);
        LemmaCountCharZero(s[1..], c);
        assert t == s[1..];
        assert Split(s, c) == [[s[0]] + t];
        assert s == [s[0]] + s[1..];
      } else {
        assert Split(s, c)[|Split(s, c)| - 1] == t;
        assert s[|s| - |t|..] == s[1..][|s| - 1 - |t|..];
        if s[0] != c {
          LemmaSplitCount(s[1..], c);
          LemmaCountCharZero(s[1..], c);
          assert |t| < |s| - 1;
        }
      }
    }
  }

  /** With a separator present, the second piece is the text between the
      first separator and the next one (or the end). */
  lemma {:induction false} LemmaSplitSecondPiece(s: string, c: char)
    requires c in s
    ensures |Split(s, c)| >= 2
    ensures |Split(s, c)[0]| < |s|
    ensures IsFirstPiece(Split(s, c)[1], s[|Split(s, c)[0]| + 1..], c)
  {
    LemmaSplitFirstPiece(s, c);
    var tail := Split(s[1..], c);
    if s[0] == c {
      assert Split(s, c) == [""] + tail;
      LemmaSplitFirstPiece(s[1..], c);
    } else {
      assert c in s[1..] by {
        var k :| 0 <= k < |s| && s[k] == c;
        assert s[1..][k - 1] == c;
      }
      LemmaSplitSecondPiece(s[1..], c);
      assert Split(s, c) == [[s[0]] + tail[0]] + tail[1..];
      assert s[|Split(s, c)[0]| + 1..] == s[1..][|tail[0]| + 1..];
    }
  }

  /** Concatenation regroups freely. */
  lemma LemmaConcatAssoc<T>(x: seq<T>, y: seq<T>, z: seq<T>)
    ensures (x + y) + z == x + (y + z)
  {
  }
}

=== FILE: wrappers.dfy ===
/** Failure-compatible wrappers shared by every module of the model. */
module Wrappers {

  /** A value that may be absent: JavaScript `undefined`/`null`, or Python `None`. */
  datatype Option<+T> = None | Some(value: T)

  /** The outcome of an operation that can throw. */
  datatype Result<+R, +E> = Success(value: R) | Failure(error: E)
}
